=== FILE: README.md ===
# Investment Titans Chat — a Dafny model of its core

Investment Titans Chat is a Streamlit page on which several investing "experts" (each an
LLM persona with its own knowledge text) answer one question concurrently. An
"Investment Masters" summary is regenerated as the answers come in. This project models
the logic underneath that page and proves what it guarantees:

- **Knowledge truncation** (`truncate_text`). A text over budget keeps a contiguous
  middle of exactly the budget. 30% of the excess is cut in front (rounded down) and the
  rest behind. Each cut is marked with its token count.
- **The expert agent** (`ExpertAgent`):
  - a knowledge budget recomputed from the original knowledge after every exchange;
  - a FIFO conversation history whose token charge is kept within 30% of the context
    window;
  - the fixed apology `get_response` returns for each exception class;
  - the prompt of `generate_summary`.
- **The one-request-per-second pacer** (`RateLimiter.wait` in utils/expert.py).
- **The per-model quota tracker** (utils/quota.py): the default table, repair of the
  session state, the sliding one-minute window, check/use of a quota, and the display
  numbers.
- **The direct Gemini path** (utils/gemini_handler.py): a sliding-window limiter
  (10 per minute), up to three attempts, and the rewrite of "503" errors.
- **The page's orchestration** (app.py):
  - the display order of the experts (Buffett first, then ASCII names, then the rest,
    each group by lower-cased name);
  - the colour table with its `#F0F0F0` fallback;
  - the loop that records answers in arrival order and re-summarises from the second
    answer on.

Modules, one file each:

| module | file | concern |
|---|---|---|
| `Common` | common.dfy | `Option`, `Result`, `Min`, `Max` |
| `Text` | text.dfy | decimal rendering/parsing, substring search, ASCII lower-casing, lexicographic order, join |
| `Truncation` | truncation.dfy | `truncate_text` and reading its markers back |
| `Pacing` | pacing.dfy | `RateLimiter.wait` of utils/expert.py |
| `Expert` | expert.dfy | `ExpertAgent` and `generate_summary` |
| `Window` | window.dfy | the one-minute sliding window shared by the quota tracker and the Gemini limiter |
| `Quota` | quota.dfy | utils/quota.py |
| `Gemini` | gemini.dfy | utils/gemini_handler.py |
| `Titans` | titans.dfy | `sort_key`, `expert_colors`, `process_responses` of app.py |

Conventions:

- Time is an integer number of microseconds, the resolution of Python's `datetime`.
- The tokenizer is a parameter with three fields. `encode` and `decode` are any
  functions between strings and token sequences. `encodes` tells whether `encode`
  returns on a text at all: tiktoken raises on text holding a special token such as
  `<|endoftext|>`. Nothing proved depends on how the tokenizer splits text.
- Each session-state mutation is a function from the old state to a result and a new
  state.
- The backend calls are parameters. `get_response` is given the reply or the exception
  class the backend produced. The Gemini path is given a function from attempt number
  to what that attempt observed. The summary loop is given the outcome of each summary
  call.

Where the code and its own comments or documentation disagree, the model
follows the code:

- The 30% history share is not an invariant in every case. A single exchange that alone
  charges more than 30% of the window evicts everything and leaves the count above the
  share (`Expert.OversizedPairExceedsShare`).
- The "at least 80k tokens of knowledge" floor never changes anything:
  `max(min(80000, a), a)` is `a` (`Expert.KnowledgeBudget`).
- The `APITimeoutError` clause of `get_response` is dead code. `APITimeoutError`
  subclasses `APIConnectionError`, whose clause comes first
  (`Expert.TimeoutApologyUnreachable`).
- The summary prompt does not contain the user's question. `generate_summary` receives
  it but does not use it.
- The history is only used for budgeting. `get_response` sends the system prompt and the
  question, never the stored exchanges.

## Model

| member | source | states |
|---|---|---|
| Truncation.PlanTruncation | utils/expert.py:44-63 | nothing is cut iff the text fits; the front and back cuts add up to the excess; the front cut is the excess's 30% rounded down and never exceeds the back cut |
| Truncation.Truncate | utils/expert.py:44-76 | a text within budget comes back unchanged; an over-budget one starts with the front marker's opening and ends with the back marker's closing |
| Truncation.PySlice | utils/expert.py:74 | Python's `s[i:j]`: each bound counts from the end when negative and is clamped to the sequence; the slice is the elements between the two clamped bounds, in order, and empty when they cross; for in-range bounds it is the plain subsequence |
| Truncation.TruncationKeepsMiddle | utils/expert.py:50-76 | under a non-negative budget that the text exceeds, the result is the front marker, the decoding of exactly `max_tokens` contiguous tokens starting at the front cut, and the back marker; front cut, kept middle and back cut partition the token sequence |
| Truncation.TruncationMarkersCarryCounts | utils/expert.py:58-76 | both markers can be parsed back from the truncated text; their numbers add up to the tokens removed, and the front one is at most 30% of them |
| Truncation.ReadFrontMarker | utils/expert.py:72-73 | the decimal count written in the front marker reads back as the count, whatever follows |
| Truncation.ReadBackMarker | utils/expert.py:74-75 | the decimal count written in the back marker reads back as the count, whatever precedes |
| Text.ParseNatToString | utils/expert.py:73-75 | rendering a count in decimal and parsing the digits back gives the count |
| Pacing.Wait | utils/expert.py:82-97 | the grant time is the earliest instant not before the call and at least one interval after the previous grant |
| Pacing.GrantsAreSpaced | utils/expert.py:82-101 | over any run of calls made one at a time through the shared pacer, consecutive grants are at least one second apart and none precedes its call |
| Expert.KnowledgeBudget | utils/expert.py:131-137 | the floor of 80000 never changes the budget: the budget is exactly the available tokens |
| Expert.AdjustKnowledgeBase | utils/expert.py:128-141 | only the knowledge changes, and it becomes the ORIGINAL knowledge truncated to the current available tokens |
| Expert.AdjustIgnoresPreviousKnowledge | utils/expert.py:139-141 | the adjusted knowledge does not depend on the previously truncated knowledge |
| Expert.NewAgent | utils/expert.py:105-122 | a new agent has an empty history with count 0, the given avatar or the robot default, its knowledge fitted to the budget, and untouched knowledge when it already fits |
| Expert.Evict | utils/expert.py:160-167 | the eviction loop removes a prefix of the history and subtracts exactly that prefix's charge; it stops at the first point where the new charge fits 30% of the window, or when the history is empty |
| Expert.UpdateChatHistory | utils/expert.py:155-176 | name, avatar and knowledge source are kept; the new exchange is last; the others retained are the most recent of the previous history; the knowledge is re-fitted to the budget |
| Expert.UpdateEvictsOldestFirst | utils/expert.py:158-170 | exactly the oldest `evicted` exchanges are dropped; every drop happened while the count plus the new charge exceeded 30% of the window; it stopped as soon as that no longer held or nothing was left |
| Expert.UpdateKeepsAccounting | utils/expert.py:158-176 | if the running count equals the charge of the retained exchanges before an update, it does after |
| Expert.UpdateKeepsShareBound | utils/expert.py:158-171 | with an accurate count, a new exchange charging at most 30% of the window leaves the count within 30% of the window |
| Expert.OversizedPairExceedsShare | utils/expert.py:158-171 | an exchange that alone charges more than 30% evicts the whole history and leaves the count above the 30% share |
| Expert.UpdateRetainsSuffix | utils/expert.py:160-170 | the history after an update is a suffix of the previous history followed by the new exchange |
| Expert.ConversationInvariant | utils/expert.py:155-176 | over any run of exchanges each charging at most 30%, the agent stays consistent (count accurate, knowledge fitted) and the count stays within the share |
| Expert.ConversationKeepsMostRecent | utils/expert.py:155-176 | after any run of exchanges the history is the most recent run of everything ever added (FIFO) |
| Expert.Apology | utils/expert.py:211-234 | the apology is that of the first `except` clause whose class the exception is an instance of |
| Expert.ApologyByClass | utils/expert.py:211-234 | the apology each exception class gets; a timeout gets the connection apology |
| Expert.TimeoutApologyUnreachable | utils/expert.py:211-224 | no exception ever gets the timeout apology |
| Expert.GetResponse | utils/expert.py:155-234 | the pacer is always waited on; an answer whose prompt and exchange the tokenizer accepts is returned and recorded exactly as `update_chat_history` records it (newest last, FIFO eviction, agent kept consistent); a backend exception leaves the agent unchanged and returns the apology of the first clause catching its class; a prompt or exchange the tokenizer refuses (lines 158, 194) leaves the agent unchanged and returns the unexpected-issue apology |
| Expert.SummaryLines | utils/expert.py:282 | `zip` stops at the shorter list: one line per pair, line i being name i, the full-width colon and response i |
| Expert.SummaryPrompt | utils/expert.py:276-287 | the prompt starts with the fixed introduction, ends with the fixed instructions, and between them holds exactly the lines joined by newlines |
| Expert.SummaryApologyMeansFailure | utils/expert.py:289-298 | `generate_summary` never raises: it returns the backend's text, and the fixed apology exactly when the call failed or the backend replied with that very text |
| Window.Prune | utils/quota.py:63-69 | the pruned log keeps, in order and with multiplicity, exactly the entries newer than a minute before `now` |
| Window.PruneLater | utils/quota.py:63-69 | pruning at one instant and again at a later one is the same as pruning once at the later one |
| Window.PruneIdempotent | utils/quota.py:63-69 | pruning twice at the same instant is pruning once |
| Window.PruneExpired | utils/gemini_handler.py:16-19 | a log whose newest entry is a minute old prunes to nothing |
| Window.PruneKeepsFresh | utils/gemini_handler.py:16-19 | a log of entries all inside the minute is kept whole |
| Window.PruneAppend | utils/quota.py:63-69 | pruning distributes over concatenation of logs |
| Quota.ModelTable | utils/quota.py:13-26 | the three configured models, each at 5 requests per conversation and at least 10 per minute |
| Quota.DefaultQuota | utils/quota.py:29-35 | a default entry has the model's per-minute limit, an empty log and no `reset_time` key |
| Quota.Repair | utils/quota.py:54-60 | repair adds a missing `requests` key as an empty list and a missing `reset_time` key as `None`, and keeps every present one |
| Quota.EnsureModels | utils/quota.py:47-60 | after the loop, each listed model has a repaired entry (its own or the default), every other entry is unchanged, and no other key is added |
| Quota.Initialized | utils/quota.py:38-60 | every configured model has an entry with both keys; the keys are the old ones plus the configured models; other entries are untouched |
| Quota.InitializeIsTheLoop | utils/quota.py:38-60 | the entry-by-entry description of initialisation equals the repair loop run in the table's order |
| Quota.InitializeQuota | utils/quota.py:38-60 | the keys afterwards are the configured models plus those already stored; an entry for a model that is not configured is kept as it was |
| Quota.InitializeQuotaEffect | utils/quota.py:38-60 | a missing state becomes the default table; a present one keeps every stored value, gains the missing configured models at their default, and loses nothing |
| Quota.InitializeIdempotent | utils/quota.py:38-60 | initialising an initialised state changes nothing |
| Quota.CleanOldRequests | utils/quota.py:63-69 | a missing or empty log gives an empty one; otherwise the log is pruned to the last minute |
| Quota.PruneLog | utils/quota.py:77-79 | only the log changes; what remains is a subsequence of it holding each entry inside the last minute exactly as many times as the log did, and nothing older |
| Quota.GetCurrentRpm | utils/quota.py:72-80 | fails iff the model has no entry after initialisation; otherwise returns the number of requests of the last minute and stores the pruned log |
| Quota.CheckQuota | utils/quota.py:83-112 | fails iff the model is not configured; otherwise prunes, never appends, and answers true iff the limit minus the recent requests covers the requirement |
| Quota.UseEntry | utils/quota.py:121-146 | a request is granted iff the pruned log is under the limit; the log becomes the pruned log with `now` appended exactly when granted; the other keys are kept |
| Quota.UseQuota | utils/quota.py:115-146 | fails iff the model is not configured; otherwise grants and records as one entry's locked block on the initialised state |
| Quota.FloorDiv | utils/quota.py:170-172 | Python's floor division for a positive divisor |
| Quota.SecondsLeft | utils/quota.py:175-179 | zero once the oldest request is a minute old, otherwise the whole seconds left until it is |
| Quota.MinOf | utils/quota.py:174-185 | the oldest request is an element of the log and no later than any other |
| Quota.DisplayOf | utils/quota.py:166-205 | the remaining and total conversations are the floor quotients of the remaining and total limits by the per-conversation cost; the countdown text is the seconds until the oldest request expires, or the per-minute text for an empty log |
| Quota.GetQuotaDisplay | utils/quota.py:149-205 | fails iff the model is not configured; otherwise stores the pruned log and displays it |
| Quota.IdleDisplay | utils/quota.py:149-205 | on a fresh session a model offers limit/5 conversations, all of them available |
| Quota.ConversationsPerMinute | utils/quota.py:13-26 | with the configured table an idle minute offers 2 conversations on each Gemini model and 12 on Grok |
| Quota.CountdownWithinAMinute | utils/quota.py:175-179 | for a request not in the future the countdown is at most 60 seconds, under 60 once time has passed |
| Quota.ApplyKeepsBound | utils/quota.py:72-205 | every tracker operation keeps each configured model's log within its per-minute limit |
| Quota.QuotaStaysBounded | utils/quota.py:115-146 | over any sequence of tracker operations, no configured model's log ever exceeds its per-minute limit |
| Gemini.CanMakeRequest | utils/gemini_handler.py:16-24 | grants iff fewer than the allowance of grants are under a minute old; forgets the old ones and records `now` exactly when granting |
| Gemini.CanMakeRequestKeepsBound | utils/gemini_handler.py:16-24 | the limiter never remembers more grants than its allowance |
| Gemini.AfterTracksWindow | utils/gemini_handler.py:16-24 | on a clock that never goes back, the limiter's memory after a run is exactly the grants less than a minute old at the last call |
| Gemini.AtMostAllowancePerMinute | utils/gemini_handler.py:11-28 | starting empty, on a clock that never goes back, at most the allowance of grants fall in the minute ending at the last call |
| Gemini.BurstAtOneInstant | utils/gemini_handler.py:16-24 | calls at the instant of the remembered grants succeed exactly while the count stays under the allowance |
| Gemini.DefaultBurst | utils/gemini_handler.py:28 | the module's limiter grants ten calls at one instant and refuses the eleventh |
| Gemini.RecoversOnceOneExpires | utils/gemini_handler.py:16-24 | once any remembered grant, in particular the oldest, is a minute old, a limiter with a positive allowance that has never overrun it grants again |
| Gemini.RecoversAfterAMinute | utils/gemini_handler.py:16-24 | a minute after the newest remembered grant, a positive allowance grants again and forgets everything older |
| Gemini.Remap | utils/gemini_handler.py:74-78 | an error mentioning "503" becomes the unavailability notice; any other is passed through |
| Gemini.RetryFrom | utils/gemini_handler.py:56-72 | the loop stops at the first reply, which it returns; otherwise it makes all three attempts and fails with the last attempt's error |
| Gemini.GenerateGeminiResponse | utils/gemini_handler.py:31-78 | a refused limiter fails with the limit message and makes no attempt; otherwise one to three attempts, success only with a reply, and a failure carries the remapped error of the third attempt |
| Gemini.FirstReplyWins | utils/gemini_handler.py:56-64 | the first attempt that gets a reply decides the call and no later attempt is made |
| Gemini.ThreeFailuresFail | utils/gemini_handler.py:56-78 | three failed attempts fail the call with the third attempt's remapped error |
| Gemini.ErrorsNeverMention503 | utils/gemini_handler.py:31-78 | no error the caller sees mentions "503" |
| Titans.KeyOf | app.py:268-273 | the key's group is 0 exactly for Buffett (any case) and names starting with an ASCII character, 1 otherwise; its name part is empty exactly for Buffett and otherwise the lower-cased name |
| Titans.SortExperts | app.py:268-275 | sorting fails (IndexError) iff some expert's name is empty; otherwise it is a permutation |
| Titans.SortExpertsCorrect | app.py:268-275 | on named experts the result is a permutation in key order, stable among equal keys |
| Titans.BuffettFirst | app.py:269-271 | if Warren Buffett (any case) is among the experts, the sorted list starts with him |
| Titans.AsciiNamesFirst | app.py:272-273 | experts whose names start with an ASCII character come before all the others |
| Titans.SameGroupByLowerName | app.py:273 | within one group, experts other than Buffett are in order of their lower-cased names |
| Titans.ColorMap | app.py:176-180 | the dict's keys are exactly the names among the first ten experts, and every value is a palette colour |
| Titans.ColorFor | app.py:189-190 | a name in the dict is drawn with its colour; any other name with the fallback; either way the colour is a dict value or the fallback |
| Titans.ZipMapLastWins | app.py:176-180 | in the name-to-colour dict, a repeated name takes the colour of its last position |
| Titans.ColorByPosition | app.py:176-180 | with distinct names, the expert at position i below ten is drawn with the i-th palette colour |
| Titans.ColorFallback | app.py:189-190 | a name not among the first ten experts is drawn with `#F0F0F0` |
| Titans.ColorsFromPalette | app.py:13-24 | every colour drawn is from the palette or is the fallback |
| Titans.Arrive | app.py:416-430 | one answer appends its message and its response; from the second answer on it adds one summary prompt, over the responses zipped with the sorted names, and shows that call's outcome |
| Titans.ProcessResponses | app.py:386-465 | the loop as written, fed the answers in arrival order and the sorted names: as many responses as answers and one message per answer appended to the log |
| Titans.RoundLog | app.py:386-421 | every answer is appended to the message log and to the responses, in arrival order, whatever the name list |
| Titans.RoundPromptsAsWritten | app.py:423-430 | as written: one summary call per answer from the second on; call j sends the prompt over the first j+2 responses, in arrival order, zipped with the first j+2 sorted names |
| Titans.SummaryLinesAsWritten | app.py:426-430 | the lines as app.py builds them: one per response as long as there are as many sorted names, line i pairing sorted name i with the i-th response to arrive |
| Titans.PanelOrder | app.py:268-275 | Munger and Buffett, loaded in either order, sort to Buffett then Munger |
| Titans.MisattributedRound | app.py:426-430 | with Munger and Buffett sorted by `sort_key` and Munger answering first, the loop as written sends a summary prompt putting Munger's answer under Buffett's name and Buffett's under Munger's, unlike the corrected loop |
| Titans.NamesOnlyAffectPrompts | app.py:386-465 | the name list reaches only the prompts: the log, the responses, the panel and the number of summary calls do not depend on it |
| Titans.ProcessResponsesAttributed | app.py:386-465 | corrected loop (each response under its own expert's name): the log, the responses and the panel are those of the loop as written |
| Titans.RoundPrompts | app.py:423-430 | corrected loop: one summary call per answer from the second on; call j sends the prompt over the first j+2 answers, each under the name of the expert that gave it |
| Titans.LastSummaryCoversAll | app.py:423-430 | corrected loop: once two answers are in, the latest summary request covers every answer so far, correctly attributed |
| Titans.AgreesInSortedOrder | app.py:423-430 | when the answers arrive in the sorted order, the loop as written and the corrected loop are the same round |
| Titans.RoundSummary | app.py:423-465 | the summary panel is empty before two answers and afterwards shows the outcome of the latest call |
| Titans.SummaryOutcomeIrrelevant | app.py:423-465 | whether summary calls succeed or raise never changes the messages, the responses or the prompts sent |

## Left out

- Concurrency is not modelled: the thread pool, the event loop, `asyncio.wait` and the
  quota lock. Each locked block is one atomic function. `get_responses_async` is
  represented by the sequence of answers in arrival order, which is a parameter.
  Answers whose task raised are dropped by `get_responses_async` and simply do not
  appear in that sequence.
- The Streamlit UI (placeholders, HTML, scrolling script, columns), logging, and
  `load_experts`/utils/document_loader.py are left out. utils/document_loader.py is not
  part of this model.
- The HTTP and OpenAI clients and `st.secrets` are left out. Their results are
  parameters: `BackendReply`, `Attempt`, `SummaryOutcome`.
- The sleeps are left out: the pacer's `time.sleep` and the one-second sleep between
  Gemini attempts.
- Pacing.Wait: `wait` stamps the grant with a fresh `time.time()` read after sleeping
  (utils/expert.py:97). The model stamps it with `max(now, last + interval)`, the
  earliest instant that read can return. A clock that runs on during or after the sleep
  gives a later stamp. The spacing `Pacing.GrantsAreSpaced` proves still holds then,
  because the next call waits from the stamp actually recorded.
- Gemini.GenerateGeminiResponse: `st.secrets["GOOGLE_API_KEY"]` is read after a grant
  (utils/gemini_handler.py:41). If the key is missing, that raises before any attempt,
  and the outer handler re-raises it. The model takes the key to be present, so it does
  not cover a granted call that makes no attempt.
- The `backoff` decorator on `get_response` is not modelled. `get_response` catches
  every `Exception`, so no exception reaches the decorator and it never retries.
- `get_system_prompt` and the token count of the system prompt are left out.
  `base_tokens` is a parameter of `Expert.NewAgent`. `max_history` is set but never read.
- Python lower-casing is modelled only for ASCII letters (`Text.Lower`). Names with
  other cased letters would compare differently under Python's full Unicode rules.
- Truncation.PlanTruncation: `int(remove * 0.3)` is modelled as the exact
  `(3 * remove) / 10`. A binary float product could round just below an integer for
  some huge counts.
- Expert.OversizedPairExceedsShare: the comparison with `MAX_TOKENS * 0.3` is the exact
  `10 * x > 3 * 131072`. The float reading differs from it for no integer `x`.
- Quota.UseEntry: `use_quota` reads the clock at utils/quota.py:122, appends that reading
  at line 143, and prunes at a second reading taken inside `clean_old_requests` (line
  67). The model takes one instant `now` for both.
- Quota.UseQuota: the same single instant as `Quota.UseEntry`.
- Quota.CheckQuota: the reading at utils/quota.py:90 is never used; the model prunes at
  one instant, which stands for the reading of line 67.
- Quota.GetQuotaDisplay: the countdown uses the reading of utils/quota.py:156 (line 178)
  and pruning a later one (line 67). The model takes one instant for both, so a request
  that expires between the two readings is not modelled.
- Pacing.GrantsAreSpaced: `RateLimiter.wait` takes no lock, and `get_response` runs on
  thread-pool threads. Spacing is proved only for calls made one at a time; two
  threads interleaving between the read of `last_request` and its update can both be
  granted without a second between them.
- Expert.NewAgent: the constructor encodes the name's base prompt and the knowledge, and
  raises when either holds a special token. Only agents that were constructed are
  modelled.
- Truncation.Truncate: `encoding.encode` is taken to return; the case where it raises
  is modelled only where `get_response` catches it (`Expert.GetResponse`).
- Expert.GetResponse: the count of the system prompt (utils/expert.py:193) is not
  modelled. The system prompt is made of the name and knowledge that the constructor
  already encoded.
- A `requests` key holding Python `None` is not modelled. Only an absent key or a list
  is. `reset_time` is stored but never read again.
- Quota.GetQuotaDisplay: the float `progress` field is not modelled.
- Titans.RoundSummary: app.py's `except` branch around the summary call can only be
  reached by an exception that `generate_summary` does not catch itself. That is
  modelled as the `SummaryRaised` outcome, without saying which exceptions can cause it.
- The `titans` summary agent (app.py:278-283) is an ordinary `ExpertAgent`. It is
  covered by `Expert.NewAgent` and is not modelled separately.

## Findings

| source | as written | input that shows it | evidently intended | confidence | as-written member | corrected member |
|---|---|---|---|---|---|---|
| app.py:429 | the summary pairs `responses`, in ARRIVAL order, with `sorted_experts[:len(responses)]`, in DISPLAY order | experts Buffett and Munger; Munger's answer arrives first: the summary line reads "Warren Buffett：" followed by Munger's answer | each response is summarised under the name of the expert that gave it | high, not executed | Titans.MisattributedRound | Titans.RoundPrompts |

The loop as written is `Titans.ProcessResponses` given the sorted names, with its
prompts described by `Titans.RoundPromptsAsWritten` and its lines by
`Titans.SummaryLinesAsWritten`. `Titans.MisattributedRound` exhibits the
misattribution on the two-expert input above. The corrected loop,
`Titans.ProcessResponsesAttributed`, is the same loop given the names in arrival order.
`Titans.RoundPrompts` proves that each of its summary prompts attributes every answer
so far correctly (`Titans.AttributedLines`). `Titans.AgreesInSortedOrder` shows that
the two loops agree when the answers happen to arrive in the sorted order.

=== FILE: common.dfy ===
/** Small failure-carrying datatypes shared by every module of the model. */
module Common {

  /** A value that may be absent: Python's `None` or a missing dict key. */
  datatype Option<+T> = None | Some(value: T) {
    function GetOr(default: T): T {
      match this
      case Some(v) => v
      case None => default
    }
  }

  /** The outcome of an operation that may raise: `Err` carries the exception's message. */
  datatype Result<+T> = Ok(value: T) | Err(message: string)

  function Min(a: int, b: int): int { if a <= b then a else b }

  function Max(a: int, b: int): int { if a >= b then a else b }
}

=== FILE: expert.dfy ===
/**
  One expert persona (`ExpertAgent` in utils/expert.py): its knowledge budget, its
  FIFO conversation history bounded by 30% of the context window, the outcome handling
  of `get_response`, and the summary prompt of `generate_summary`.

  The backend call itself is a parameter: `get_response` is given the reply the backend
  produced (an answer or a raised exception class).
 */
module Expert {
  import opened Common
  import opened Text
  import opened Truncation
  import opened Pacing

  /** The model's context window (Grok). */
  const MAX_TOKENS: int := 131072
  /** Tokens reserved for one question and answer. */
  const TOKENS_PER_TURN: int := 2000
  /** The knowledge floor that `adjust_knowledge_base` takes the minimum with. */
  const KNOWLEDGE_FLOOR: int := 80000
  const DEFAULT_AVATAR: string := "🤖"

  datatype QA = QA(question: string, answer: string)

  /**
    The agent's state. `baseTokens` is the token cost of the system prompt with empty
    knowledge, fixed at construction.
   */
  datatype Agent = Agent(
    name: string,
    originalKnowledge: string,
    avatar: string,
    history: seq<QA>,
    historyTokens: int,
    baseTokens: nat,
    knowledgeBase: string)

  /** The text whose tokens a history entry is charged: `f"Q: {question}\nA: {answer}"`. */
  function QAText(p: QA): string {
    "Q: " + p.question + "\nA: " + p.answer
  }

  function PairTokens(tok: Tokenizer, p: QA): nat {
    CountTokens(tok, QAText(p))
  }

  /** The total token charge of a list of history entries. */
  function HistoryCost(tok: Tokenizer, h: seq<QA>): nat
    decreases |h|
  {
    if |h| == 0 then 0 else PairTokens(tok, h[0]) + HistoryCost(tok, h[1..])
  }

  lemma {:induction false} HistoryCostAppend(tok: Tokenizer, a: seq<QA>, b: seq<QA>)
    ensures HistoryCost(tok, a + b) == HistoryCost(tok, a) + HistoryCost(tok, b)
    decreases |a|
  {
    if |a| == 0 {
      assert a + b == b;
    } else {
      assert (a + b)[1..] == a[1..] + b;
      HistoryCostAppend(tok, a[1..], b);
    }
  }

  lemma CostOfPrefix(tok: Tokenizer, h: seq<QA>, j: nat)
    requires 1 <= j <= |h|
    ensures HistoryCost(tok, h[..j]) == PairTokens(tok, h[0]) + HistoryCost(tok, h[1..][..j - 1])
  {
    assert h[..j][1..] == h[1..][..j - 1];
  }

  /** `tokens > MAX_TOKENS * 0.3`, exactly, in integers. */
  predicate OverHistoryShare(tokens: int) {
    10 * tokens > 3 * MAX_TOKENS
  }

  /** `available_tokens` of `adjust_knowledge_base`. */
  function AvailableTokens(baseTokens: nat, historyTokens: int): int {
    MAX_TOKENS - baseTokens - historyTokens - TOKENS_PER_TURN
  }

  /** `max(min(80000, available), available)`: the floor never changes the budget. */
  function KnowledgeBudget(available: int): (b: int)
    ensures b == available
  {
    Max(Min(KNOWLEDGE_FLOOR, available), available)
  }

  /** The agent's knowledge is its original knowledge truncated to the current budget. */
  predicate KnowledgeFitsBudget(tok: Tokenizer, a: Agent) {
    a.knowledgeBase == Truncate(tok, a.originalKnowledge, AvailableTokens(a.baseTokens, a.historyTokens))
  }

  /** The running history count equals the charge of the retained entries. */
  predicate HistoryAccounted(tok: Tokenizer, a: Agent) {
    a.historyTokens == HistoryCost(tok, a.history)
  }

  predicate Valid(tok: Tokenizer, a: Agent) {
    HistoryAccounted(tok, a) && KnowledgeFitsBudget(tok, a)
  }

  /** `adjust_knowledge_base`: recompute the budget and re-truncate the ORIGINAL knowledge. */
  function AdjustKnowledgeBase(tok: Tokenizer, a: Agent): (r: Agent)
    ensures r.(knowledgeBase := a.knowledgeBase) == a
    ensures KnowledgeFitsBudget(tok, r)
  {
    var budget := KnowledgeBudget(AvailableTokens(a.baseTokens, a.historyTokens));
    a.(knowledgeBase := Truncate(tok, a.originalKnowledge, budget))
  }

  /** The knowledge an adjustment produces does not depend on the previous (truncated) knowledge. */
  lemma AdjustIgnoresPreviousKnowledge(tok: Tokenizer, a: Agent, stale: string)
    ensures AdjustKnowledgeBase(tok, a.(knowledgeBase := stale)) == AdjustKnowledgeBase(tok, a)
  {
  }

  /** `ExpertAgent(name, knowledge_base, avatar)`: empty history, knowledge fitted to the budget. */
  function NewAgent(tok: Tokenizer, name: string, knowledge: string, avatar: Option<string>, baseTokens: nat): (a: Agent)
    ensures a.name == name && a.originalKnowledge == knowledge && a.baseTokens == baseTokens
    ensures a.history == [] && a.historyTokens == 0
    ensures a.avatar == (if avatar.Some? && avatar.value != "" then avatar.value else DEFAULT_AVATAR)
    ensures Valid(tok, a)
    ensures CountTokens(tok, knowledge) <= AvailableTokens(baseTokens, 0) ==> a.knowledgeBase == knowledge
  {
    var face := if avatar.Some? && avatar.value != "" then avatar.value else DEFAULT_AVATAR;
    AdjustKnowledgeBase(tok, Agent(name, knowledge, face, [], 0, baseTokens, ""))
  }

  /**
    The eviction loop of `update_chat_history`: drop the oldest entry while the count plus
    the incoming charge exceeds 30% of the window and the history is not empty. Returns
    the retained entries and the decremented count.
   */
  function Evict(tok: Tokenizer, history: seq<QA>, historyTokens: int, incoming: nat): (r: (seq<QA>, int))
    ensures EvictedPrefix(tok, history, historyTokens, incoming, r.0, r.1)
    decreases |history|
  {
    if OverHistoryShare(historyTokens + incoming) && |history| > 0 then
      var r := Evict(tok, history[1..], historyTokens - PairTokens(tok, history[0]), incoming);
      EvictStep(tok, history, historyTokens, incoming, r.0, r.1);
      r
    else
      assert history[..0] == [];
      (history, historyTokens)
  }

  /**
    `kept` and `count` are what evicting the oldest entries of `history` leaves: a suffix,
    the count less the evicted charge, stopped at the first point where the new charge fits
    in 30% of the window (or when nothing is left).
   */
  predicate EvictedPrefix(tok: Tokenizer, history: seq<QA>, historyTokens: int, incoming: nat, kept: seq<QA>, count: int) {
    && |kept| <= |history|
    && kept == history[|history| - |kept|..]
    && count == historyTokens - HistoryCost(tok, history[..|history| - |kept|])
    && (|kept| == 0 || !OverHistoryShare(count + incoming))
    && (forall j :: 0 <= j < |history| - |kept| ==>
          OverHistoryShare(historyTokens - HistoryCost(tok, history[..j]) + incoming))
  }

  /** One more eviction in front of a finished eviction of the rest is a finished eviction. */
  lemma EvictStep(tok: Tokenizer, history: seq<QA>, historyTokens: int, incoming: nat, kept: seq<QA>, count: int)
    requires |history| > 0 && OverHistoryShare(historyTokens + incoming)
    requires EvictedPrefix(tok, history[1..], historyTokens - PairTokens(tok, history[0]), incoming, kept, count)
    ensures EvictedPrefix(tok, history, historyTokens, incoming, kept, count)
  {
    var h1 := history[1..];
    var t1 := historyTokens - PairTokens(tok, history[0]);
    var k := |history| - |kept|;
    assert h1[|h1| - |kept|..] == history[k..];
    CostOfPrefix(tok, history, k);
    forall j | 0 <= j < k
      ensures OverHistoryShare(historyTokens - HistoryCost(tok, history[..j]) + incoming)
    {
      if j == 0 {
        assert history[..0] == [];
      } else {
        CostOfPrefix(tok, history, j);
        assert OverHistoryShare(t1 - HistoryCost(tok, h1[..j - 1]) + incoming);
      }
    }
  }

  /** `update_chat_history(question, answer)`. */
  function UpdateChatHistory(tok: Tokenizer, a: Agent, question: string, answer: string): (r: Agent)
    ensures r.name == a.name && r.originalKnowledge == a.originalKnowledge
    ensures r.avatar == a.avatar && r.baseTokens == a.baseTokens
    ensures |r.history| >= 1 && r.history[|r.history| - 1] == QA(question, answer)
    ensures |r.history| <= |a.history| + 1
    ensures r.history[..|r.history| - 1] == a.history[|a.history| - (|r.history| - 1)..]
    ensures KnowledgeFitsBudget(tok, r)
  {
    var pair := QA(question, answer);
    var incoming := PairTokens(tok, pair);
    var (kept, count) := Evict(tok, a.history, a.historyTokens, incoming);
    assert (kept + [pair])[..|kept|] == kept;
    AdjustKnowledgeBase(tok, a.(history := kept + [pair], historyTokens := count + incoming))
  }

  /**
    The eviction stops at the first point where the count plus the new charge fits in
    30% of the window, or when the history runs out: `evicted` oldest entries are gone.
   */
  lemma UpdateEvictsOldestFirst(tok: Tokenizer, a: Agent, question: string, answer: string) returns (evicted: nat)
    ensures evicted <= |a.history|
    ensures UpdateChatHistory(tok, a, question, answer).history == a.history[evicted..] + [QA(question, answer)]
    ensures forall j :: 0 <= j < evicted ==>
              OverHistoryShare(a.historyTokens - HistoryCost(tok, a.history[..j]) + PairTokens(tok, QA(question, answer)))
    ensures evicted == |a.history| ||
            !OverHistoryShare(a.historyTokens - HistoryCost(tok, a.history[..evicted]) + PairTokens(tok, QA(question, answer)))
  {
    var pair := QA(question, answer);
    var r := Evict(tok, a.history, a.historyTokens, PairTokens(tok, pair));
    evicted := |a.history| - |r.0|;
  }

  /** If the running count matched the retained entries before the update, it still does after. */
  lemma {:induction false} UpdateKeepsAccounting(tok: Tokenizer, a: Agent, question: string, answer: string)
    requires HistoryAccounted(tok, a)
    ensures Valid(tok, UpdateChatHistory(tok, a, question, answer))
  {
    var pair := QA(question, answer);
    var incoming := PairTokens(tok, pair);
    var r := Evict(tok, a.history, a.historyTokens, incoming);
    var k := |a.history| - |r.0|;
    assert a.history == a.history[..k] + r.0;
    HistoryCostAppend(tok, a.history[..k], r.0);
    HistoryCostAppend(tok, r.0, [pair]);
    assert HistoryCost(tok, [pair]) == incoming by {
      assert [pair][1..] == [];
    }
  }

  /**
    With an accurate count, a new entry charging at most 30% of the window leaves the
    count within 30% of the window.
   */
  lemma UpdateKeepsShareBound(tok: Tokenizer, a: Agent, question: string, answer: string)
    requires HistoryAccounted(tok, a)
    requires !OverHistoryShare(PairTokens(tok, QA(question, answer)))
    ensures !OverHistoryShare(UpdateChatHistory(tok, a, question, answer).historyTokens)
  {
    var pair := QA(question, answer);
    var r := Evict(tok, a.history, a.historyTokens, PairTokens(tok, pair));
    if |r.0| == 0 {
      assert a.history[..|a.history|] == a.history;
    }
  }

  /**
    An entry that alone charges more than 30% of the window evicts the whole history and
    leaves the count above the bound: the 30% share is not an unconditional invariant.
   */
  lemma OversizedPairExceedsShare(tok: Tokenizer, a: Agent, question: string, answer: string)
    requires HistoryAccounted(tok, a)
    requires OverHistoryShare(PairTokens(tok, QA(question, answer)))
    ensures UpdateChatHistory(tok, a, question, answer).history == [QA(question, answer)]
    ensures OverHistoryShare(UpdateChatHistory(tok, a, question, answer).historyTokens)
  {
    var pair := QA(question, answer);
    var r := Evict(tok, a.history, a.historyTokens, PairTokens(tok, pair));
    var k := |a.history| - |r.0|;
    assert a.history == a.history[..k] + r.0;
    HistoryCostAppend(tok, a.history[..k], r.0);
  }

  /** The state after a sequence of successful turns. */
  function Converse(tok: Tokenizer, a: Agent, turns: seq<QA>): Agent
    decreases |turns|
  {
    if |turns| == 0 then a
    else Converse(tok, UpdateChatHistory(tok, a, turns[0].question, turns[0].answer), turns[1..])
  }

  ghost predicate IsSuffix<T>(s: seq<T>, whole: seq<T>) {
    |s| <= |whole| && s == whole[|whole| - |s|..]
  }

  /** The history after an update is the most recent run of the old history plus the new entry. */
  lemma UpdateRetainsSuffix(tok: Tokenizer, a: Agent, question: string, answer: string)
    ensures IsSuffix(UpdateChatHistory(tok, a, question, answer).history, a.history + [QA(question, answer)])
  {
    var evicted := UpdateEvictsOldestFirst(tok, a, question, answer);
    assert a.history[evicted..] + [QA(question, answer)] == (a.history + [QA(question, answer)])[evicted..];
  }

  /** One successful turn under the share bound keeps the agent valid and bounded. */
  lemma TurnKeepsInvariant(tok: Tokenizer, a: Agent, t: QA)
    requires Valid(tok, a) && !OverHistoryShare(a.historyTokens)
    requires !OverHistoryShare(PairTokens(tok, t))
    ensures Valid(tok, UpdateChatHistory(tok, a, t.question, t.answer))
    ensures !OverHistoryShare(UpdateChatHistory(tok, a, t.question, t.answer).historyTokens)
  {
    assert t == QA(t.question, t.answer);
    UpdateKeepsAccounting(tok, a, t.question, t.answer);
    UpdateKeepsShareBound(tok, a, t.question, t.answer);
  }

  /**
    Over any sequence of turns whose entries each charge at most 30% of the window, the
    agent stays valid and the count stays within the share.
   */
  lemma {:induction false} ConversationInvariant(tok: Tokenizer, a: Agent, turns: seq<QA>)
    requires Valid(tok, a) && !OverHistoryShare(a.historyTokens)
    requires forall i :: 0 <= i < |turns| ==> !OverHistoryShare(PairTokens(tok, turns[i]))
    ensures Valid(tok, Converse(tok, a, turns))
    ensures !OverHistoryShare(Converse(tok, a, turns).historyTokens)
    decreases |turns|
  {
    if |turns| > 0 {
      var t := turns[0];
      var b := UpdateChatHistory(tok, a, t.question, t.answer);
      var rest := turns[1..];
      TurnKeepsInvariant(tok, a, t);
      assert forall i :: 0 <= i < |rest| ==> rest[i] == turns[i + 1];
      ConversationInvariant(tok, b, rest);
      var c := Converse(tok, b, rest);
      assert Converse(tok, a, turns) == c;
    }
  }

  /** The retained history is always the most recent run of all entries ever added (FIFO eviction). */
  lemma {:induction false} ConversationKeepsMostRecent(tok: Tokenizer, a: Agent, turns: seq<QA>)
    ensures IsSuffix(Converse(tok, a, turns).history, a.history + turns)
    decreases |turns|
  {
    if |turns| == 0 {
      assert a.history + turns == a.history;
    } else {
      var t := turns[0];
      var rest := turns[1..];
      var b := UpdateChatHistory(tok, a, t.question, t.answer);
      assert t == QA(t.question, t.answer);
      UpdateRetainsSuffix(tok, a, t.question, t.answer);
      ConversationKeepsMostRecent(tok, b, rest);
      var c := Converse(tok, b, rest);
      assert Converse(tok, a, turns) == c;
      assert turns == [t] + rest;
      SuffixStep(a.history, t, rest, b.history, c.history);
    }
  }

  lemma SuffixStep<T>(h: seq<T>, x: T, rest: seq<T>, b: seq<T>, c: seq<T>)
    requires IsSuffix(b, h + [x])
    requires IsSuffix(c, b + rest)
    ensures IsSuffix(c, h + ([x] + rest))
  {
    assert h + ([x] + rest) == (h + [x]) + rest;
    assert b + rest == ((h + [x]) + rest)[|h + [x]| - |b|..];
  }

  // ---- get_response ----

  /**
    The exception classes `get_response` can see, with the OpenAI SDK's hierarchy:
    APITimeoutError is an APIConnectionError; both and RateLimitError are APIErrors.
    `Exception` stands for any exception outside the SDK.
   */
  datatype ExcClass = APIConnectionError | APITimeoutError | RateLimitError | APIError | Exception

  /** `isinstance(raised, handler)`. */
  predicate IsInstance(raised: ExcClass, handler: ExcClass) {
    match handler
    case Exception => true
    case APIError => raised != Exception
    case APIConnectionError => raised == APIConnectionError || raised == APITimeoutError
    case APITimeoutError => raised == APITimeoutError
    case RateLimitError => raised == RateLimitError
  }

  const CONNECTION_APOLOGY: string := "🔌 Connection lost... Let me try to reconnect and get back to you."
  const RATE_LIMIT_APOLOGY: string := "⏳ The server is quite busy. Please give me a moment to catch up."
  const TIMEOUT_APOLOGY: string := "⌛ Taking longer than expected... Let me speed things up."
  const API_APOLOGY: string := "🔧 Oops! Something went wrong. I'll fix it and try again."
  const UNEXPECTED_APOLOGY: string := "🎯 Unexpected issue. I'll recalibrate and get back on track."

  /** The `except` clauses of `get_response`, in order. */
  const HANDLERS: seq<(ExcClass, string)> := [
    (APIConnectionError, CONNECTION_APOLOGY),
    (RateLimitError, RATE_LIMIT_APOLOGY),
    (APITimeoutError, TIMEOUT_APOLOGY),
    (APIError, API_APOLOGY),
    (Exception, UNEXPECTED_APOLOGY)
  ]

  /** The index of the first handler that catches `raised`, if any. */
  function FirstHandler(raised: ExcClass, handlers: seq<(ExcClass, string)>): (i: Option<nat>)
    ensures i.Some? ==> i.value < |handlers| && IsInstance(raised, handlers[i.value].0)
    ensures i.Some? ==> forall j :: 0 <= j < i.value ==> !IsInstance(raised, handlers[j].0)
    ensures i.None? ==> forall j :: 0 <= j < |handlers| ==> !IsInstance(raised, handlers[j].0)
    decreases |handlers|
  {
    if |handlers| == 0 then None
    else if IsInstance(raised, handlers[0].0) then Some(0)
    else match FirstHandler(raised, handlers[1..])
      case None => None
      case Some(k) => Some(k + 1)
  }

  /** The apology `get_response` returns for an exception of class `raised`. */
  function Apology(raised: ExcClass): (msg: string)
    ensures exists i :: 0 <= i < |HANDLERS| && IsInstance(raised, HANDLERS[i].0) && msg == HANDLERS[i].1
              && forall j :: 0 <= j < i ==> !IsInstance(raised, HANDLERS[j].0)
  {
    match FirstHandler(raised, HANDLERS)
    case Some(i) => HANDLERS[i].1
    case None => assert IsInstance(raised, HANDLERS[4].0); UNEXPECTED_APOLOGY
  }

  /** Each class's apology; a timeout is caught by the connection clause first. */
  lemma ApologyByClass()
    ensures Apology(APIConnectionError) == CONNECTION_APOLOGY
    ensures Apology(APITimeoutError) == CONNECTION_APOLOGY
    ensures Apology(RateLimitError) == RATE_LIMIT_APOLOGY
    ensures Apology(APIError) == API_APOLOGY
    ensures Apology(Exception) == UNEXPECTED_APOLOGY
  {
    assert HANDLERS[0] == (APIConnectionError, CONNECTION_APOLOGY);
    assert HANDLERS[1] == (RateLimitError, RATE_LIMIT_APOLOGY);
    assert HANDLERS[2] == (APITimeoutError, TIMEOUT_APOLOGY);
    assert HANDLERS[3] == (APIError, API_APOLOGY);
    assert HANDLERS[4] == (Exception, UNEXPECTED_APOLOGY);
  }

  /** The timeout clause is dead: no exception reaches it. */
  lemma TimeoutApologyUnreachable(raised: ExcClass)
    ensures Apology(raised) != TIMEOUT_APOLOGY
  {
    ApologyByClass();
  }

  /** What the backend did with the request. */
  datatype BackendReply = Answered(text: string) | Raised(cls: ExcClass)

  /** The result of `get_response`: the text shown, the agent after, the shared pacer after. */
  datatype Turn = Turn(reply: string, agent: Agent, pacer: Pacer)

  /**
    Whether `get_response` records the exchange: the prompt can be counted (line 194),
    the backend answered, and the new exchange can be counted (line 158). Counting raises
    on text the tokenizer refuses, which the last `except` clause turns into an apology.
   */
  predicate Recorded(tok: Tokenizer, prompt: string, reply: BackendReply) {
    tok.encodes(prompt) && reply.Answered? && tok.encodes(QAText(QA(prompt, reply.text)))
  }

  /**
    `get_response(prompt)` at clock `now`: wait on the pacer, count the prompt, call the
    backend, and on success record the exchange; every exception becomes the apology of
    the first `except` clause that catches it.
   */
  function GetResponse(tok: Tokenizer, a: Agent, pacer: Pacer, now: int, prompt: string, reply: BackendReply): (t: Turn)
    ensures t.pacer == Wait(pacer, now)
    ensures Recorded(tok, prompt, reply) ==> t.reply == reply.text && t.agent == UpdateChatHistory(tok, a, prompt, reply.text)
    ensures Recorded(tok, prompt, reply) ==>
              |t.agent.history| >= 1 && t.agent.history[|t.agent.history| - 1] == QA(prompt, reply.text)
    ensures Recorded(tok, prompt, reply) ==> IsSuffix(t.agent.history, a.history + [QA(prompt, reply.text)])
    ensures Recorded(tok, prompt, reply) && HistoryAccounted(tok, a) ==> Valid(tok, t.agent)
    ensures !Recorded(tok, prompt, reply) ==> t.agent == a
    ensures tok.encodes(prompt) && reply.Raised? ==> t.reply == Apology(reply.cls)
    ensures !tok.encodes(prompt) || (reply.Answered? && !Recorded(tok, prompt, reply)) ==> t.reply == UNEXPECTED_APOLOGY
  {
    var paced := Wait(pacer, now);
    ApologyByClass();
    if !tok.encodes(prompt) then Turn(Apology(Exception), a, paced)
    else
      match reply
      case Raised(cls) => Turn(Apology(cls), a, paced)
      case Answered(text) =>
        if !tok.encodes(QAText(QA(prompt, text))) then Turn(Apology(Exception), a, paced)
        else
          var after := UpdateChatHistory(tok, a, prompt, text);
          assert HistoryAccounted(tok, a) ==> Valid(tok, after) by {
            if HistoryAccounted(tok, a) {
              UpdateKeepsAccounting(tok, a, prompt, text);
            }
          }
          UpdateRetainsSuffix(tok, a, prompt, text);
          Turn(text, after, paced)
  }

  // ---- generate_summary ----

  const SUMMARY_INTRO: string := "作为 Investment Masters，你的任务是总结和整合各位投资大师的观点。\n\n以下是各位大师对这个 thesis 的分析和建议：\n\n"
  const SUMMARY_OUTRO: string := "\n\n请你：\n1. 总结各位大师发现的主要问题\n2. 归纳他们提出需要多深入研究什麼\n"
  const SUMMARY_APOLOGY: string := "抱歉，无法生成总结。"

  /** One `name：response` line per pair of `zip(names, responses)`. */
  function SummaryLines(names: seq<string>, responses: seq<string>): (lines: seq<string>)
    ensures |lines| == Min(|names|, |responses|)
    ensures forall i :: 0 <= i < |lines| ==> lines[i] == names[i] + "：" + responses[i]
  {
    seq(Min(|names|, |responses|), i requires 0 <= i < Min(|names|, |responses|) => names[i] + "：" + responses[i])
  }

  /** The prompt of the summary call; the user's own prompt is not part of it. */
  function SummaryPrompt(lines: seq<string>): (p: string)
    ensures StartsWith(p, SUMMARY_INTRO) && EndsWith(p, SUMMARY_OUTRO)
    ensures |SUMMARY_INTRO| + |SUMMARY_OUTRO| <= |p|
    ensures p[|SUMMARY_INTRO|..|p| - |SUMMARY_OUTRO|] == Join(lines, "\n")
  {
    var p := SUMMARY_INTRO + Join(lines, "\n") + SUMMARY_OUTRO;
    assert p[..|SUMMARY_INTRO|] == SUMMARY_INTRO;
    assert p[|p| - |SUMMARY_OUTRO|..] == SUMMARY_OUTRO;
    p
  }

  datatype SummaryReply = Summarised(text: string) | SummaryFailed

  /** `generate_summary`: the backend's text, or the fixed apology when the call fails. */
  function GenerateSummary(reply: SummaryReply): string {
    match reply
    case Summarised(t) => t
    case SummaryFailed => SUMMARY_APOLOGY
  }

  /**
    `generate_summary` never raises: a caller sees the apology exactly when the call failed
    or the backend itself replied with the apology's text.
   */
  lemma SummaryApologyMeansFailure(reply: SummaryReply)
    ensures GenerateSummary(reply) == SUMMARY_APOLOGY <==> reply.SummaryFailed? || reply.text == SUMMARY_APOLOGY
    ensures reply.Summarised? ==> GenerateSummary(reply) == reply.text
  {
  }
}

=== FILE: gemini.dfy ===
/**
  The direct Gemini path (utils/gemini_handler.py): a sliding-window limiter in front of
  at most three attempts at the backend, with a final rewrite of "503" errors. The HTTP
  request is a parameter: `backend(k)` is what attempt `k` observes.
 */
module Gemini {
  import opened Common
  import opened Text
  import opened Window

  /** `RateLimiter`: its per-minute allowance and the grant times it remembers. */
  datatype Limiter = Limiter(requestsPerMinute: int, requests: seq<int>)

  /** The module-level `rate_limiter`. */
  const GLOBAL_LIMITER: Limiter := Limiter(10, [])

  /** Whether a request was allowed, and the limiter afterwards. */
  datatype Decision = Decision(granted: bool, limiter: Limiter)

  /** `can_make_request()` at `now`: forget grants a minute old or older, then grant while under the allowance. */
  function CanMakeRequest(l: Limiter, now: int): (d: Decision)
    ensures d.limiter.requestsPerMinute == l.requestsPerMinute
    ensures d.granted <==> |Prune(l.requests, now, MINUTE)| < l.requestsPerMinute
    ensures d.limiter.requests == Prune(l.requests, now, MINUTE) + (if d.granted then [now] else [])
  {
    var live := Prune(l.requests, now, MINUTE);
    if |live| < l.requestsPerMinute then Decision(true, Limiter(l.requestsPerMinute, live + [now]))
    else Decision(false, Limiter(l.requestsPerMinute, live))
  }

  /** The limiter never remembers more grants than its allowance (none at all for a non-positive one). */
  predicate LimiterBounded(l: Limiter) {
    |l.requests| <= Max(l.requestsPerMinute, 0)
  }

  lemma CanMakeRequestKeepsBound(l: Limiter, now: int)
    requires LimiterBounded(l)
    ensures LimiterBounded(CanMakeRequest(l, now).limiter)
  {
  }

  /** The limiter after calls at the given clock readings. */
  function After(l: Limiter, clock: seq<int>): (r: Limiter)
    ensures r.requestsPerMinute == l.requestsPerMinute
    decreases |clock|
  {
    if |clock| == 0 then l else After(CanMakeRequest(l, clock[0]).limiter, clock[1..])
  }

  /** The answers of successive calls. */
  function Decisions(l: Limiter, clock: seq<int>): (r: seq<bool>)
    ensures |r| == |clock|
    decreases |clock|
  {
    if |clock| == 0 then []
    else
      var d := CanMakeRequest(l, clock[0]);
      [d.granted] + Decisions(d.limiter, clock[1..])
  }

  /** The clock readings of the granted calls, in order. */
  function Granted(l: Limiter, clock: seq<int>): seq<int>
    decreases |clock|
  {
    if |clock| == 0 then []
    else
      var d := CanMakeRequest(l, clock[0]);
      (if d.granted then [clock[0]] else []) + Granted(d.limiter, clock[1..])
  }

  predicate NonDecreasing(clock: seq<int>) {
    forall i, j :: 0 <= i <= j < |clock| ==> clock[i] <= clock[j]
  }

  /** One call at `c` followed by grants `g`, all seen from a later instant, is the same window as before the call. */
  lemma StepWindow(l: Limiter, c: int, g: seq<int>, last: int)
    requires c <= last
    ensures Prune(CanMakeRequest(l, c).limiter.requests + g, last, MINUTE)
         == Prune(l.requests + ((if CanMakeRequest(l, c).granted then [c] else []) + g), last, MINUTE)
  {
    var d := CanMakeRequest(l, c);
    var mine := if d.granted then [c] else [];
    var kept := Prune(l.requests, c, MINUTE);
    assert d.limiter.requests + g == kept + (mine + g);
    PruneAppend(kept, mine + g, last, MINUTE);
    PruneLater(l.requests, c, last, MINUTE);
    PruneAppend(l.requests, mine + g, last, MINUTE);
  }

  /** The grants of a run are the first call's grant followed by the rest's. */
  lemma GrantedStep(l: Limiter, clock: seq<int>)
    requires |clock| > 0
    ensures var d := CanMakeRequest(l, clock[0]);
            Granted(l, clock) == (if d.granted then [clock[0]] else []) + Granted(d.limiter, clock[1..])
  {
  }

  /**
    On a clock that never goes back, the limiter's memory after a run is exactly the
    grants (earlier ones and this run's) that are less than a minute old at the last call.
   */
  lemma {:induction false} AfterTracksWindow(l: Limiter, clock: seq<int>)
    requires |clock| > 0 && NonDecreasing(clock)
    ensures After(l, clock).requests == Prune(l.requests + Granted(l, clock), clock[|clock| - 1], MINUTE)
    decreases |clock|
  {
    var c := clock[0];
    var d := CanMakeRequest(l, c);
    var rest := clock[1..];
    var last := clock[|clock| - 1];
    GrantedStep(l, clock);
    assert c <= last;
    if |clock| == 1 {
      assert Granted(d.limiter, rest) == [];
      StepWindow(l, c, [], last);
      PruneKeepsFresh(d.limiter.requests, last, MINUTE);
      assert d.limiter.requests + [] == d.limiter.requests;
    } else {
      assert NonDecreasing(rest);
      assert rest[|rest| - 1] == last;
      AfterTracksWindow(d.limiter, rest);
      StepWindow(l, c, Granted(d.limiter, rest), last);
    }
  }

  lemma {:induction false} AfterKeepsBound(l: Limiter, clock: seq<int>)
    requires LimiterBounded(l)
    ensures LimiterBounded(After(l, clock))
    decreases |clock|
  {
    if |clock| > 0 {
      CanMakeRequestKeepsBound(l, clock[0]);
      AfterKeepsBound(CanMakeRequest(l, clock[0]).limiter, clock[1..]);
    }
  }

  /**
    The rate-limiting promise: starting from an empty limiter, on a clock that never goes
    back, at most `requestsPerMinute` grants fall in the minute ending at the last call.
   */
  lemma AtMostAllowancePerMinute(rpm: int, clock: seq<int>)
    requires |clock| > 0 && NonDecreasing(clock)
    ensures |Prune(Granted(Limiter(rpm, []), clock), clock[|clock| - 1], MINUTE)| <= Max(rpm, 0)
  {
    var l := Limiter(rpm, []);
    AfterTracksWindow(l, clock);
    AfterKeepsBound(l, clock);
    assert l.requests + Granted(l, clock) == Granted(l, clock);
    assert After(l, clock).requests == Prune(Granted(l, clock), clock[|clock| - 1], MINUTE);
    assert |After(l, clock).requests| <= Max(rpm, 0);
  }

  /** `n` copies of `x`. */
  function Repeat(x: int, n: nat): (r: seq<int>)
    ensures |r| == n
    ensures forall i :: 0 <= i < n ==> r[i] == x
  {
    seq(n, _ => x)
  }

  /** Calls all made at the instant the remembered grants were made: exactly the first `rpm - |requests|` succeed. */
  lemma {:induction false} BurstAtOneInstant(l: Limiter, now: int, n: nat)
    requires forall i :: 0 <= i < |l.requests| ==> l.requests[i] == now
    ensures forall i :: 0 <= i < n ==>
              (Decisions(l, Repeat(now, n))[i] <==> |l.requests| + i < l.requestsPerMinute)
    decreases n
  {
    if n > 0 {
      var clock := Repeat(now, n);
      PruneKeepsFresh(l.requests, now, MINUTE);
      var d := CanMakeRequest(l, now);
      assert clock[1..] == Repeat(now, n - 1);
      BurstAtOneInstant(d.limiter, now, n - 1);
      var r := Decisions(l, clock);
      assert r == [d.granted] + Decisions(d.limiter, Repeat(now, n - 1));
    }
  }

  /** The default limiter grants ten calls at one instant and refuses the eleventh. */
  lemma DefaultBurst(now: int)
    ensures Decisions(GLOBAL_LIMITER, Repeat(now, 11)) == [true, true, true, true, true, true, true, true, true, true, false]
  {
    BurstAtOneInstant(GLOBAL_LIMITER, now, 11);
  }

  /** A full minute after the newest remembered grant, a positive allowance grants again and forgets the rest. */
  lemma RecoversAfterAMinute(l: Limiter, newest: int, now: int)
    requires l.requestsPerMinute >= 1
    requires forall i :: 0 <= i < |l.requests| ==> l.requests[i] <= newest
    requires now >= newest + MINUTE
    ensures CanMakeRequest(l, now) == Decision(true, Limiter(l.requestsPerMinute, [now]))
  {
    PruneExpired(l.requests, newest, now, MINUTE);
  }

  /**
    Capacity comes back as soon as any one remembered grant, in particular the oldest, is a
    minute old: a bounded limiter with a positive allowance then grants.
   */
  lemma RecoversOnceOneExpires(l: Limiter, i: nat, now: int)
    requires LimiterBounded(l) && l.requestsPerMinute >= 1
    requires i < |l.requests| && l.requests[i] <= now - MINUTE
    ensures CanMakeRequest(l, now).granted
  {
    var live := Prune(l.requests, now, MINUTE);
    var t := l.requests[i];
    assert multiset(live) <= multiset(l.requests);
    var gone := multiset(l.requests) - multiset(live);
    assert multiset(l.requests) == multiset(live) + gone;
    assert t in gone;
  }

  /** What one attempt at the backend observes. */
  datatype Attempt =
    | Replied(text: string)   // a JSON body with `candidates`
    | NoCandidates            // a JSON body without `candidates`
    | Failed(message: string) // any raised exception, by its `str()`

  const LIMIT_MESSAGE: string := "已达到每分钟请求限制，请稍后再试"
  const FORMAT_MESSAGE: string := "响应格式不正确"
  const UNAVAILABLE_MESSAGE: string := "Gemini 服务暂时不可用，请稍后再试或切换到其他模型"

  /** The number of attempts, `range(3)`. */
  const ATTEMPTS: nat := 3

  /** The message of the exception a failed attempt raises. */
  function AttemptError(a: Attempt): string
    requires !a.Replied?
  {
    if a.NoCandidates? then FORMAT_MESSAGE else a.message
  }

  /** The outer handler: an error whose message mentions "503" becomes the unavailability notice. */
  function Remap(message: string): (r: string)
    ensures Contains(message, "503") ==> r == UNAVAILABLE_MESSAGE
    ensures !Contains(message, "503") ==> r == message
  {
    if Contains(message, "503") then UNAVAILABLE_MESSAGE else message
  }

  /** The retry loop from attempt `i`: the outcome and how many attempts were made in total. */
  function RetryFrom(backend: nat -> Attempt, i: nat): (r: (Result<string>, nat))
    requires i < ATTEMPTS
    ensures i < r.1 <= ATTEMPTS
    ensures forall k :: i <= k < r.1 - 1 ==> !backend(k).Replied?
    ensures r.0.Ok? ==> backend(r.1 - 1) == Replied(r.0.value)
    ensures r.0.Err? ==> r.1 == ATTEMPTS && !backend(ATTEMPTS - 1).Replied?
                         && r.0.message == AttemptError(backend(ATTEMPTS - 1))
    decreases ATTEMPTS - i
  {
    match backend(i)
    case Replied(text) => (Ok(text), i + 1)
    case _ => if i == ATTEMPTS - 1 then (Err(AttemptError(backend(i))), ATTEMPTS) else RetryFrom(backend, i + 1)
  }

  /** The outcome of `generate_gemini_response`, the limiter it leaves, and the backend attempts it made. */
  datatype GeminiCall = GeminiCall(result: Result<string>, limiter: Limiter, attempts: nat)

  /** `generate_gemini_response(prompt, model_name)` at `now`. */
  function GenerateGeminiResponse(l: Limiter, now: int, backend: nat -> Attempt): (c: GeminiCall)
    ensures c.limiter == CanMakeRequest(l, now).limiter
    ensures !CanMakeRequest(l, now).granted ==> c.result == Err(LIMIT_MESSAGE) && c.attempts == 0
    ensures CanMakeRequest(l, now).granted ==> 1 <= c.attempts <= ATTEMPTS
    ensures c.result.Ok? ==> backend(c.attempts - 1) == Replied(c.result.value)
    ensures forall k :: 0 <= k < c.attempts - 1 ==> !backend(k).Replied?
    ensures c.result.Err? && c.attempts > 0 ==>
              && c.attempts == ATTEMPTS && !backend(ATTEMPTS - 1).Replied?
              && c.result.message == Remap(AttemptError(backend(ATTEMPTS - 1)))
  {
    var d := CanMakeRequest(l, now);
    if !d.granted then
      NoFiveIn(LIMIT_MESSAGE);
      GeminiCall(Err(Remap(LIMIT_MESSAGE)), d.limiter, 0)
    else
      var (outcome, n) := RetryFrom(backend, 0);
      match outcome
      case Ok(text) => GeminiCall(Ok(text), d.limiter, n)
      case Err(m) => GeminiCall(Err(Remap(m)), d.limiter, n)
  }

  lemma NoFiveIn(s: string)
    requires forall i :: 0 <= i < |s| ==> s[i] != '5'
    ensures !Contains(s, "503")
  {
    NoFiveNo503(s);
  }

  /** The first attempt that gets a reply decides the call; nothing after it is tried. */
  lemma FirstReplyWins(l: Limiter, now: int, backend: nat -> Attempt, k: nat)
    requires CanMakeRequest(l, now).granted
    requires k < ATTEMPTS && backend(k).Replied?
    requires forall j :: 0 <= j < k ==> !backend(j).Replied?
    ensures GenerateGeminiResponse(l, now, backend) == GeminiCall(Ok(backend(k).text), CanMakeRequest(l, now).limiter, k + 1)
  {
  }

  /** Three failures in a row give the last attempt's error, and the call fails. */
  lemma ThreeFailuresFail(l: Limiter, now: int, backend: nat -> Attempt)
    requires CanMakeRequest(l, now).granted
    requires forall j :: 0 <= j < ATTEMPTS ==> !backend(j).Replied?
    ensures GenerateGeminiResponse(l, now, backend)
         == GeminiCall(Err(Remap(AttemptError(backend(2)))), CanMakeRequest(l, now).limiter, ATTEMPTS)
  {
  }

  /** The outer handler never lets "503" through. */
  lemma RemapClears503(message: string)
    ensures !Contains(Remap(message), "503")
  {
    if Contains(message, "503") {
      UnavailableIsClean();
    }
  }

  lemma UnavailableIsClean()
    ensures !Contains(UNAVAILABLE_MESSAGE, "503")
  {
    NoFiveIn(UNAVAILABLE_MESSAGE);
  }

  /** No error the caller sees mentions "503": such errors are replaced by the unavailability notice. */
  lemma ErrorsNeverMention503(l: Limiter, now: int, backend: nat -> Attempt)
    ensures GenerateGeminiResponse(l, now, backend).result.Err? ==>
              !Contains(GenerateGeminiResponse(l, now, backend).result.message, "503")
  {
    var c := GenerateGeminiResponse(l, now, backend);
    if c.result.Err? {
      if c.attempts == 0 {
        NoFiveIn(LIMIT_MESSAGE);
      } else {
        RemapClears503(AttemptError(backend(ATTEMPTS - 1)));
      }
    }
  }
}

=== FILE: pacing.dfy ===
/**
  The fixed-interval limiter that `get_response` waits on before every backend call
  (`RateLimiter.wait` in utils/expert.py), on an integer microsecond clock. The sleep is
  not modelled; only the grant time it produces is.
 */
module Pacing {
  import opened Common

  /** One second on the microsecond clock. */
  const SECOND: nat := 1_000_000

  /**
    `interval` is `1 / requests_per_second`; `last` is `last_request_time`. The process-wide
    limiter is `Pacer(SECOND, 0)`: one request per second, last request at time 0.
   */
  datatype Pacer = Pacer(interval: nat, last: int)

  /**
    `wait()` called at `now`: the new grant time is the earliest instant that is not before
    `now` and at least one interval after the previous grant.
   */
  function Wait(p: Pacer, now: int): (q: Pacer)
    ensures q.interval == p.interval
    ensures q.last >= now && q.last >= p.last + p.interval
    ensures q.last == now || q.last == p.last + p.interval
  {
    p.(last := Max(now, p.last + p.interval))
  }

  /** The grant times of successive `wait()` calls made at the given clock readings. */
  function GrantTimes(p: Pacer, clock: seq<int>): seq<int>
    decreases |clock|
  {
    if |clock| == 0 then [] else
      var q := Wait(p, clock[0]);
      [q.last] + GrantTimes(q, clock[1..])
  }

  /** Consecutive grants are at least one interval apart and never precede their call. */
  lemma {:induction false} GrantsAreSpaced(p: Pacer, clock: seq<int>)
    ensures |GrantTimes(p, clock)| == |clock|
    ensures forall i :: 0 <= i < |clock| ==> GrantTimes(p, clock)[i] >= clock[i]
    ensures |clock| > 0 ==> GrantTimes(p, clock)[0] >= p.last + p.interval
    ensures forall i :: 0 <= i < |clock| - 1 ==>
              GrantTimes(p, clock)[i + 1] >= GrantTimes(p, clock)[i] + p.interval
    decreases |clock|
  {
    if |clock| > 0 {
      var q := Wait(p, clock[0]);
      GrantsAreSpaced(q, clock[1..]);
      var g := GrantTimes(p, clock);
      assert g == [q.last] + GrantTimes(q, clock[1..]);
    }
  }
}

=== FILE: quota.dfy ===
/**
  The per-model request quota tracker (utils/quota.py). Session state is a map from model
  name to its quota entry; each locked block of the source is one function from the old
  session state to a result and the new state. `now` is a parameter.
 */
module Quota {
  import opened Common
  import opened Text
  import opened Window

  datatype ModelConfig = ModelConfig(limitPerMin: int, requestsPerConversation: int)

  /** `MODEL_QUOTAS`, in its declaration order. */
  const MODEL_NAMES: seq<string> := ["gemini-2.0-flash-exp", "grok-beta", "gemini-1.5-flash"]

  const MODEL_QUOTAS: map<string, ModelConfig> := map[
    "gemini-2.0-flash-exp" := ModelConfig(10, 5),
    "grok-beta" := ModelConfig(60, 5),
    "gemini-1.5-flash" := ModelConfig(10, 5)
  ]

  /** The names listed are exactly the configured models, and every configuration is positive. */
  lemma ModelTable()
    ensures forall n :: n in MODEL_QUOTAS <==> n in MODEL_NAMES
    ensures forall n :: n in MODEL_QUOTAS ==> MODEL_QUOTAS[n].requestsPerConversation == 5
    ensures forall n :: n in MODEL_QUOTAS ==> MODEL_QUOTAS[n].limitPerMin >= 10
  {
  }

  /**
    One model's entry in `quota_info`. Each field is `None` when its key is missing from
    the dict; `resetTime` holds `Some(None)` for a stored Python `None`.
   */
  datatype QuotaEntry = QuotaEntry(limit: Option<int>, requests: Option<seq<int>>, resetTime: Option<Option<int>>)

  type QuotaInfo = map<string, QuotaEntry>

  /** `get_default_quota(model_name)`. */
  function DefaultQuota(name: string): (e: QuotaEntry)
    requires name in MODEL_QUOTAS
    ensures e.limit == Some(MODEL_QUOTAS[name].limitPerMin)
    ensures e.requests == Some([]) && e.resetTime == None
  {
    QuotaEntry(Some(MODEL_QUOTAS[name].limitPerMin), Some([]), None)
  }

  /** Adds the `requests` and `reset_time` keys an entry lacks, touching nothing else. */
  function Repair(e: QuotaEntry): (r: QuotaEntry)
    ensures r.limit == e.limit
    ensures r.requests.Some? && (e.requests.Some? ==> r.requests == e.requests)
    ensures r.resetTime.Some? && (e.resetTime.Some? ==> r.resetTime == e.resetTime)
    ensures e.requests.None? ==> r.requests == Some([])
    ensures e.resetTime.None? ==> r.resetTime == Some(None)
  {
    QuotaEntry(
      e.limit,
      if e.requests.None? then Some([]) else e.requests,
      if e.resetTime.None? then Some(None) else e.resetTime)
  }

  /** One iteration of the repair loop of `initialize_quota`. */
  function EnsureModel(info: QuotaInfo, name: string): QuotaInfo
    requires name in MODEL_QUOTAS
  {
    var e := if name in info then info[name] else DefaultQuota(name);
    info[name := Repair(e)]
  }

  /** The repair loop of `initialize_quota` over `names`. */
  function EnsureModels(info: QuotaInfo, names: seq<string>): (r: QuotaInfo)
    requires forall i :: 0 <= i < |names| ==> names[i] in MODEL_QUOTAS
    ensures forall n :: n in r <==> n in info || n in names
    ensures forall n :: n in names ==> r[n] == Repair(if n in info then info[n] else DefaultQuota(n))
    ensures forall n :: n in info && n !in names ==> r[n] == info[n]
    decreases |names|
  {
    if |names| == 0 then info
    else
      var m := names[0];
      var next := EnsureModel(info, m);
      var r := EnsureModels(next, names[1..]);
      assert forall n :: n in names <==> n == m || n in names[1..];
      r
  }

  /** The dict `initialize_quota` starts its repair loop from: the session's, or one default entry per model. */
  function InitialInfo(session: Option<QuotaInfo>): QuotaInfo {
    if session.None? then map n | n in MODEL_QUOTAS :: DefaultQuota(n) else session.value
  }

  /** Every configured model given an entry (its default if missing) and repaired; every other entry kept. */
  function Initialized(info: QuotaInfo): (r: QuotaInfo)
    ensures forall n :: n in MODEL_QUOTAS ==> n in r && r[n].requests.Some? && r[n].resetTime.Some?
    ensures r.Keys == info.Keys + MODEL_QUOTAS.Keys
    ensures forall n :: n in MODEL_QUOTAS ==> r[n] == Repair(if n in info then info[n] else DefaultQuota(n))
    ensures forall n :: n in info && n !in MODEL_QUOTAS ==> r[n] == info[n]
  {
    map n | n in info.Keys + MODEL_QUOTAS.Keys ::
      if n in MODEL_QUOTAS then Repair(if n in info then info[n] else DefaultQuota(n)) else info[n]
  }

  /** `initialize_quota()`, given `quota_info` (absent or present). */
  function InitializeQuota(session: Option<QuotaInfo>): (r: QuotaInfo)
    ensures forall n :: n in MODEL_QUOTAS ==> n in r && r[n].requests.Some? && r[n].resetTime.Some?
    ensures r.Keys == MODEL_QUOTAS.Keys + (if session.Some? then session.value.Keys else {})
    ensures session.Some? ==> forall n :: n in session.value && n !in MODEL_QUOTAS ==> r[n] == session.value[n]
  {
    Initialized(if session.None? then map[] else session.value)
  }

  /** The loop's result on a given starting dict, entry by entry. */
  lemma LoopEntries(info: QuotaInfo)
    ensures var loop := EnsureModels(info, MODEL_NAMES);
            && loop.Keys == info.Keys + MODEL_QUOTAS.Keys
            && (forall n :: n in MODEL_QUOTAS ==> loop[n] == Repair(if n in info then info[n] else DefaultQuota(n)))
            && (forall n :: n in info && n !in MODEL_QUOTAS ==> loop[n] == info[n])
  {
    ModelTable();
  }

  lemma InitializedIsTheLoop(info: QuotaInfo)
    ensures Initialized(info) == EnsureModels(info, MODEL_NAMES)
  {
    LoopEntries(info);
    var r := Initialized(info);
    var loop := EnsureModels(info, MODEL_NAMES);
    SameEntries(r, loop, info);
  }

  /** Two states that agree with the repair rule on every key are equal. */
  lemma SameEntries(a: QuotaInfo, b: QuotaInfo, info: QuotaInfo)
    requires a.Keys == info.Keys + MODEL_QUOTAS.Keys && b.Keys == a.Keys
    requires forall n :: n in MODEL_QUOTAS ==> a[n] == b[n]
    requires forall n :: n in info && n !in MODEL_QUOTAS ==> a[n] == b[n]
    ensures a == b
  {
    forall n | n in a
      ensures a[n] == b[n]
    {
      if n !in MODEL_QUOTAS {
        assert n in info;
      }
    }
  }

  /** Starting from the default dict or from an empty one makes no difference. */
  lemma DefaultsAreRepaired()
    ensures Initialized(InitialInfo(None)) == Initialized(map[])
  {
    var a := Initialized(InitialInfo(None));
    var b := Initialized(map[]);
    assert a.Keys == b.Keys;
  }

  /** The entry-by-entry description agrees with the repair loop as the source runs it, in the table's order. */
  lemma InitializeIsTheLoop(session: Option<QuotaInfo>)
    ensures InitializeQuota(session) == EnsureModels(InitialInfo(session), MODEL_NAMES)
  {
    InitializedIsTheLoop(InitialInfo(session));
    if session.None? {
      DefaultsAreRepaired();
    }
  }

  /**
    Initialization adds the configured models that are missing, with their default entry,
    completes entries that lack a key, and changes nothing else.
   */
  lemma InitializeQuotaEffect(session: Option<QuotaInfo>)
    ensures var r := InitializeQuota(session);
            && (session.None? ==> r.Keys == MODEL_QUOTAS.Keys)
            && (session.Some? ==> r.Keys == session.value.Keys + MODEL_QUOTAS.Keys)
            && (session.Some? ==> forall n :: n in session.value ==>
                  && r[n].limit == session.value[n].limit
                  && (session.value[n].requests.Some? ==> r[n].requests == session.value[n].requests)
                  && (session.value[n].resetTime.Some? ==> r[n].resetTime == session.value[n].resetTime))
            && (session.Some? ==> forall n :: n in session.value && n !in MODEL_QUOTAS ==> r[n] == session.value[n])
            && (forall n :: n in MODEL_QUOTAS && (session.None? || n !in session.value) ==>
                  r[n] == QuotaEntry(Some(MODEL_QUOTAS[n].limitPerMin), Some([]), Some(None)))
  {
  }

  /** Initializing an already initialized state changes nothing. */
  lemma InitializeIdempotent(session: Option<QuotaInfo>)
    ensures InitializeQuota(Some(InitializeQuota(session))) == InitializeQuota(session)
  {
    var r := InitializeQuota(session);
    var r2 := InitializeQuota(Some(r));
    assert r2.Keys == r.Keys;
  }

  /** `clean_old_requests(requests)`: nothing for a missing or empty log. */
  function CleanOldRequests(requests: Option<seq<int>>, now: int): (r: seq<int>)
    ensures requests.None? ==> r == []
    ensures requests.Some? ==> r == Prune(requests.value, now, MINUTE)
  {
    match requests
    case None => []
    case Some(log) => if |log| == 0 then [] else Prune(log, now, MINUTE)
  }

  /** A result together with the session state the call leaves behind. */
  datatype QuotaStep<T> = QuotaStep(result: Result<T>, info: QuotaInfo)

  const KEY_ERROR: string := "KeyError"

  /** An entry after the pruning every locked block starts with: only recent requests stay, and only the log changes. */
  function PruneLog(e: QuotaEntry, now: int): (r: QuotaEntry)
    ensures r.limit == e.limit && r.resetTime == e.resetTime
    ensures r.requests.Some?
    ensures forall i :: 0 <= i < |r.requests.value| ==> r.requests.value[i] > now - MINUTE
    ensures e.requests.Some? ==> IsSubsequence(r.requests.value, e.requests.value)
    ensures e.requests.Some? ==> |r.requests.value| <= |e.requests.value|
    ensures e.requests.Some? ==> forall t :: t in e.requests.value && t > now - MINUTE ==> t in r.requests.value
    ensures e.requests.Some? ==> forall t :: multiset(r.requests.value)[t]
                                        == if t > now - MINUTE then multiset(e.requests.value)[t] else 0
  {
    var kept := CleanOldRequests(e.requests, now);
    assert e.requests.Some? ==> forall t :: t in e.requests.value && t > now - MINUTE ==> t in kept by {
      if e.requests.Some? {
        forall t | t in e.requests.value && t > now - MINUTE
          ensures t in kept
        {
          assert multiset(e.requests.value)[t] > 0;
        }
      }
    }
    e.(requests := Some(kept))
  }

  /** `get_current_rpm(model_name)`: the number of requests of the last minute, pruning the log on the way. */
  function GetCurrentRpm(session: Option<QuotaInfo>, name: string, now: int): (s: QuotaStep<nat>)
    ensures var init := InitializeQuota(session);
            && (s.result.Err? <==> name !in init)
            && (s.result.Err? ==> s.info == init)
            && (s.result.Ok? ==> s.info == init[name := PruneLog(init[name], now)])
            && (s.result.Ok? ==> s.result.value == |CleanOldRequests(init[name].requests, now)|)
  {
    var info := InitializeQuota(session);
    if name !in info then QuotaStep(Err(KEY_ERROR), info)
    else
      var e := PruneLog(info[name], now);
      QuotaStep(Ok(|e.requests.value|), info[name := e])
  }

  /** `check_quota(model_name, required_quota)`: prunes, never appends. */
  function CheckQuota(session: Option<QuotaInfo>, name: string, required: int, now: int): (s: QuotaStep<bool>)
    ensures var init := InitializeQuota(session);
            && (s.result.Err? <==> name !in MODEL_QUOTAS)
            && (s.result.Err? ==> s.info == init)
            && (s.result.Ok? ==> s.info == init[name := PruneLog(init[name], now)])
            && (s.result.Ok? ==> (s.result.value <==>
                  MODEL_QUOTAS[name].limitPerMin - |CleanOldRequests(init[name].requests, now)| >= required))
  {
    var info := InitializeQuota(session);
    if name !in MODEL_QUOTAS then QuotaStep(Err(KEY_ERROR), info)
    else
      var e := PruneLog(info[name], now);
      QuotaStep(Ok(MODEL_QUOTAS[name].limitPerMin - |e.requests.value| >= required), info[name := e])
  }

  /** The locked block of `use_quota` on one entry: prune, then record `now` only while under `limit`. */
  function UseEntry(e: QuotaEntry, limit: int, now: int): (r: (bool, QuotaEntry))
    ensures r.1.limit == e.limit && r.1.resetTime == e.resetTime
    ensures r.0 <==> |CleanOldRequests(e.requests, now)| < limit
    ensures r.1.requests == Some(CleanOldRequests(e.requests, now) + (if r.0 then [now] else []))
  {
    var log := CleanOldRequests(e.requests, now);
    if |log| >= limit then
      assert log + [] == log;
      (false, e.(requests := Some(log)))
    else (true, e.(requests := Some(log + [now])))
  }

  /** `use_quota(model_name)`: grants and records `now` only while the pruned log is under the limit. */
  function UseQuota(session: Option<QuotaInfo>, name: string, now: int): (s: QuotaStep<bool>)
    ensures var init := InitializeQuota(session);
            && (s.result.Err? <==> name !in MODEL_QUOTAS)
            && (s.result.Err? ==> s.info == init)
            && (s.result.Ok? ==>
                  var (granted, e) := UseEntry(init[name], MODEL_QUOTAS[name].limitPerMin, now);
                  s.result.value == granted && s.info == init[name := e])
  {
    var info := InitializeQuota(session);
    if name !in MODEL_QUOTAS then QuotaStep(Err(KEY_ERROR), info)
    else
      var (granted, e) := UseEntry(info[name], MODEL_QUOTAS[name].limitPerMin, now);
      QuotaStep(Ok(granted), info[name := e])
  }

  /** Python's `a // b` for a positive divisor. */
  function FloorDiv(a: int, b: int): (q: int)
    requires b > 0
    ensures b * q <= a < b * (q + 1)
  {
    a / b
  }

  /** `max(0, int((oldest + 1 minute - now).total_seconds()))`. */
  function SecondsLeft(oldest: int, now: int): (s: nat)
    ensures oldest + MINUTE - now <= 0 ==> s == 0
    ensures oldest + MINUTE - now > 0 ==> s * SECOND <= oldest + MINUTE - now < (s + 1) * SECOND
  {
    var d := oldest + MINUTE - now;
    if d <= 0 then 0 else d / SECOND
  }

  /** The smallest entry of a non-empty log. */
  function MinOf(log: seq<int>): (m: int)
    requires |log| > 0
    ensures m in log
    ensures forall i :: 0 <= i < |log| ==> m <= log[i]
    decreases |log|
  {
    if |log| == 1 then log[0] else Min(log[0], MinOf(log[1..]))
  }

  const EVERY_MINUTE_TEXT: string := "每分钟重置"
  const RESET_SUFFIX: string := "秒后重置一个配额"

  /** The fields of the dict `get_quota_display` returns, except the float `progress`. */
  datatype QuotaDisplay = QuotaDisplay(
    remaining: int,
    limit: int,
    timeText: string,
    currentRpm: nat,
    requestsPerConversation: int,
    requests: seq<int>,
    oldestRequestTime: Option<int>)

  /** The display computed from a model's configuration and its pruned log. */
  function DisplayOf(cfg: ModelConfig, log: seq<int>, now: int): (d: QuotaDisplay)
    requires cfg.requestsPerConversation > 0
    ensures d.requests == log && d.currentRpm == |log|
    ensures d.requestsPerConversation == cfg.requestsPerConversation
    ensures cfg.requestsPerConversation * d.remaining <= cfg.limitPerMin - |log|
    ensures cfg.limitPerMin - |log| < cfg.requestsPerConversation * (d.remaining + 1)
    ensures cfg.requestsPerConversation * d.limit <= cfg.limitPerMin < cfg.requestsPerConversation * (d.limit + 1)
    ensures d.oldestRequestTime.None? <==> |log| == 0
    ensures d.oldestRequestTime.Some? ==>
              d.oldestRequestTime.value in log && forall i :: 0 <= i < |log| ==> d.oldestRequestTime.value <= log[i]
    ensures |log| == 0 ==> d.timeText == EVERY_MINUTE_TEXT
    ensures |log| > 0 ==> d.timeText == NatToString(SecondsLeft(d.oldestRequestTime.value, now)) + RESET_SUFFIX
  {
    var conversations := FloorDiv(cfg.limitPerMin - |log|, cfg.requestsPerConversation);
    var total := FloorDiv(cfg.limitPerMin, cfg.requestsPerConversation);
    var oldest := if |log| > 0 then Some(MinOf(log)) else None;
    var text := if |log| > 0 then NatToString(SecondsLeft(oldest.value, now)) + RESET_SUFFIX else EVERY_MINUTE_TEXT;
    QuotaDisplay(conversations, total, text, |log|, cfg.requestsPerConversation, log, oldest)
  }

  /** `get_quota_display(model_name)`. */
  function GetQuotaDisplay(session: Option<QuotaInfo>, name: string, now: int): (s: QuotaStep<QuotaDisplay>)
    ensures var init := InitializeQuota(session);
            && (s.result.Err? <==> name !in MODEL_QUOTAS)
            && (s.result.Err? ==> s.info == init)
            && (s.result.Ok? ==> s.info == init[name := PruneLog(init[name], now)])
            && (s.result.Ok? ==> MODEL_QUOTAS[name].requestsPerConversation > 0)
            && (s.result.Ok? ==>
                  s.result.value == DisplayOf(MODEL_QUOTAS[name], CleanOldRequests(init[name].requests, now), now))
  {
    ModelTable();
    var info := InitializeQuota(session);
    if name !in MODEL_QUOTAS then QuotaStep(Err(KEY_ERROR), info)
    else
      var e := PruneLog(info[name], now);
      QuotaStep(Ok(DisplayOf(MODEL_QUOTAS[name], e.requests.value, now)), info[name := e])
  }

  /** On a fresh session, a model's display offers `limit / 5` conversations, all of them available. */
  lemma IdleDisplay(name: string, now: int)
    requires name in MODEL_QUOTAS
    ensures GetQuotaDisplay(None, name, now).result.Ok?
    ensures GetQuotaDisplay(None, name, now).result.value.limit == MODEL_QUOTAS[name].limitPerMin / 5
    ensures GetQuotaDisplay(None, name, now).result.value.remaining == MODEL_QUOTAS[name].limitPerMin / 5
  {
    ModelTable();
    InitializeQuotaEffect(None);
    assert InitializeQuota(None)[name].requests == Some([]);
    assert CleanOldRequests(Some([]), now) == [];
  }

  /** With the configured table an idle minute allows 2 conversations on Gemini and 12 on Grok. */
  lemma ConversationsPerMinute(now: int)
    ensures GetQuotaDisplay(None, "gemini-2.0-flash-exp", now).result.value.limit == 2
    ensures GetQuotaDisplay(None, "gemini-1.5-flash", now).result.value.limit == 2
    ensures GetQuotaDisplay(None, "grok-beta", now).result.value.limit == 12
    ensures GetQuotaDisplay(None, "grok-beta", now).result.value.remaining == 12
  {
    IdleDisplay("gemini-2.0-flash-exp", now);
    IdleDisplay("gemini-1.5-flash", now);
    IdleDisplay("grok-beta", now);
  }

  /** For a request that is not in the future the countdown is at most a minute, and under one once time has passed. */
  lemma CountdownWithinAMinute(oldest: int, now: int)
    requires oldest <= now
    ensures SecondsLeft(oldest, now) <= 60
    ensures oldest < now ==> SecondsLeft(oldest, now) < 60
  {
    var s := SecondsLeft(oldest, now);
    if s >= 60 {
      assert s * SECOND >= 60 * SECOND;
    }
  }

  /** Every configured model's log holds at most its per-minute limit. */
  ghost predicate QuotaBounded(info: QuotaInfo) {
    forall n :: n in MODEL_QUOTAS && n in info && info[n].requests.Some? ==>
      |info[n].requests.value| <= MODEL_QUOTAS[n].limitPerMin
  }

  /** The calls the rest of the program makes on the tracker. */
  datatype QuotaCall =
    | Rpm(model: string)
    | Check(model: string, required: int)
    | Use(model: string)
    | Display(model: string)

  function Apply(info: QuotaInfo, call: QuotaCall, now: int): QuotaInfo {
    match call
    case Rpm(m) => GetCurrentRpm(Some(info), m, now).info
    case Check(m, k) => CheckQuota(Some(info), m, k, now).info
    case Use(m) => UseQuota(Some(info), m, now).info
    case Display(m) => GetQuotaDisplay(Some(info), m, now).info
  }

  /** The state after a sequence of calls, each at its own clock reading. */
  function ApplyAll(info: QuotaInfo, calls: seq<(QuotaCall, int)>): QuotaInfo
    decreases |calls|
  {
    if |calls| == 0 then info else ApplyAll(Apply(info, calls[0].0, calls[0].1), calls[1..])
  }

  lemma InitializeKeepsBound(session: Option<QuotaInfo>)
    requires session.Some? ==> QuotaBounded(session.value)
    ensures QuotaBounded(InitializeQuota(session))
  {
    InitializeQuotaEffect(session);
  }

  /** Replacing one entry by one whose log is within the model's limit keeps the bound. */
  lemma ReplaceKeepsBound(info: QuotaInfo, m: string, e: QuotaEntry)
    requires QuotaBounded(info)
    requires m in MODEL_QUOTAS && e.requests.Some? ==> |e.requests.value| <= MODEL_QUOTAS[m].limitPerMin
    ensures QuotaBounded(info[m := e])
  {
  }

  /** Each call keeps every configured model's log within its limit: `use_quota` is the only writer that appends. */
  lemma ApplyKeepsBound(info: QuotaInfo, call: QuotaCall, now: int)
    requires QuotaBounded(info)
    ensures QuotaBounded(Apply(info, call, now))
  {
    InitializeKeepsBound(Some(info));
    var init := InitializeQuota(Some(info));
    var m := call.model;
    if m in MODEL_QUOTAS {
      var e := init[m];
      var limit := MODEL_QUOTAS[m].limitPerMin;
      assert |e.requests.value| <= limit;
      match call
      case Use(_) =>
        ReplaceKeepsBound(init, m, UseEntry(e, limit, now).1);
      case _ =>
        ReplaceKeepsBound(init, m, PruneLog(e, now));
    } else if call.Rpm? && m in init {
      ReplaceKeepsBound(init, m, PruneLog(init[m], now));
    }
  }

  /** From any bounded state, the bound holds after every call of any sequence. */
  lemma {:induction false} QuotaStaysBounded(info: QuotaInfo, calls: seq<(QuotaCall, int)>)
    requires QuotaBounded(info)
    ensures QuotaBounded(ApplyAll(info, calls))
    decreases |calls|
  {
    if |calls| > 0 {
      ApplyKeepsBound(info, calls[0].0, calls[0].1);
      QuotaStaysBounded(Apply(info, calls[0].0, calls[0].1), calls[1..]);
    }
  }
}

=== FILE: text.dfy ===
/**
  String helpers the core relies on from Python: `str(n)` for non-negative integers,
  the substring test `sub in s`, ASCII `str.lower()`, `str.isascii()` on one character,
  code-point string comparison, and `sep.join(lines)`.
 */
module Text {

  predicate IsDigit(c: char) {
    '0' <= c <= '9'
  }

  predicate AllDigits(s: string) {
    forall i :: 0 <= i < |s| ==> IsDigit(s[i])
  }

  function DigitChar(d: nat): (c: char)
    requires d < 10
    ensures IsDigit(c)
  {
    ('0' as int + d) as char
  }

  function DigitValue(c: char): (d: nat)
    requires IsDigit(c)
    ensures d < 10 && DigitChar(d) == c
  {
    c as int - '0' as int
  }

  /** Python's `str(n)` for a non-negative integer: decimal digits, no leading zero. */
  function NatToString(n: nat): (s: string)
    ensures |s| >= 1 && AllDigits(s)
    ensures |s| > 1 ==> s[0] != '0'
    decreases n
  {
    if n < 10 then [DigitChar(n)] else NatToString(n / 10) + [DigitChar(n % 10)]
  }

  /** The value of a string of decimal digits (the empty string reads as 0). */
  function ParseDigits(s: string): nat
    requires AllDigits(s)
    decreases |s|
  {
    if |s| == 0 then 0 else 10 * ParseDigits(s[..|s| - 1]) + DigitValue(s[|s| - 1])
  }

  /** Printing a count and reading it back gives the same count. */
  lemma {:induction false} ParseNatToString(n: nat)
    ensures ParseDigits(NatToString(n)) == n
    decreases n
  {
    var s := NatToString(n);
    if n >= 10 {
      ParseNatToString(n / 10);
      assert s[..|s| - 1] == NatToString(n / 10);
      assert s[|s| - 1] == DigitChar(n % 10);
    }
  }

  /** Length of the longest run of digits at the start of `s`. */
  function LeadingDigitCount(s: string): (k: nat)
    ensures k <= |s|
    ensures forall i :: 0 <= i < k ==> IsDigit(s[i])
    ensures k == |s| || !IsDigit(s[k])
    decreases |s|
  {
    if |s| == 0 || !IsDigit(s[0]) then 0 else 1 + LeadingDigitCount(s[1..])
  }

  /** Length of the longest run of digits at the end of `s`. */
  function TrailingDigitCount(s: string): (k: nat)
    ensures k <= |s|
    ensures forall i :: |s| - k <= i < |s| ==> IsDigit(s[i])
    ensures k == |s| || !IsDigit(s[|s| - k - 1])
    decreases |s|
  {
    if |s| == 0 || !IsDigit(s[|s| - 1]) then 0 else 1 + TrailingDigitCount(s[..|s| - 1])
  }

  /** A digit string followed by a non-digit is exactly the leading digit run. */
  lemma LeadingDigitsOf(d: string, b: string)
    requires AllDigits(d)
    requires |b| == 0 || !IsDigit(b[0])
    ensures LeadingDigitCount(d + b) == |d|
  {
    var s := d + b;
    assert forall i :: 0 <= i < |d| ==> s[i] == d[i];
    assert |b| > 0 ==> s[|d|] == b[0];
  }

  /** A digit string preceded by a non-digit is exactly the trailing digit run. */
  lemma TrailingDigitsOf(a: string, d: string)
    requires AllDigits(d)
    requires |a| == 0 || !IsDigit(a[|a| - 1])
    ensures TrailingDigitCount(a + d) == |d|
  {
    var s := a + d;
    assert forall i :: 0 <= i < |d| ==> s[|a| + i] == d[i];
    assert |a| > 0 ==> s[|a| - 1] == a[|a| - 1];
  }

  /** `sub` occurs in `s` starting at index `i`. */
  predicate OccursAt(s: string, sub: string, i: int) {
    0 <= i && i + |sub| <= |s| && s[i..i + |sub|] == sub
  }

  /** Python's `sub in s` for strings. */
  predicate Contains(s: string, sub: string) {
    exists i | 0 <= i <= |s| - |sub| :: OccursAt(s, sub, i)
  }

  /** A string without the character '5' never contains "503". */
  lemma NoFiveNo503(s: string)
    requires forall i :: 0 <= i < |s| ==> s[i] != '5'
    ensures !Contains(s, "503")
  {
    forall i ensures !OccursAt(s, "503", i) {
      if 0 <= i && i + 3 <= |s| {
        assert s[i..i + 3][0] == s[i];
      }
    }
  }

  /** `str.isascii()` of a one-character string. */
  predicate IsAsciiChar(c: char) {
    c as int < 128
  }

  function LowerChar(c: char): char {
    if 'A' <= c <= 'Z' then (c as int + 32) as char else c
  }

  /** `str.lower()` restricted to the ASCII letters. */
  function Lower(s: string): (r: string)
    ensures |r| == |s|
    ensures forall i :: 0 <= i < |s| ==> r[i] == LowerChar(s[i])
  {
    seq(|s|, i requires 0 <= i < |s| => LowerChar(s[i]))
  }

  /** Python's `a <= b` on strings: lexicographic by code point. */
  predicate LexLe(a: string, b: string)
    decreases |a|
  {
    if |a| == 0 then true
    else if |b| == 0 then false
    else if a[0] != b[0] then a[0] < b[0]
    else LexLe(a[1..], b[1..])
  }

  lemma {:induction false} LexLeTotal(a: string, b: string)
    ensures LexLe(a, b) || LexLe(b, a)
    decreases |a|
  {
    if |a| > 0 && |b| > 0 && a[0] == b[0] {
      LexLeTotal(a[1..], b[1..]);
    }
  }

  lemma {:induction false} LexLeTransitive(a: string, b: string, c: string)
    requires LexLe(a, b) && LexLe(b, c)
    ensures LexLe(a, c)
    decreases |a|
  {
    if |a| > 0 && |b| > 0 && |c| > 0 && a[0] == b[0] && b[0] == c[0] {
      LexLeTransitive(a[1..], b[1..], c[1..]);
    }
  }

  /** Python's `sep.join(parts)`. */
  function Join(parts: seq<string>, sep: string): (r: string)
    ensures |parts| > 0 ==> |parts[0]| <= |r| && r[..|parts[0]|] == parts[0]
    decreases |parts|
  {
    if |parts| == 0 then ""
    else if |parts| == 1 then parts[0]
    else parts[0] + sep + Join(parts[1..], sep)
  }
}

=== FILE: titans.dfy ===
/**
  The chat page's orchestration (app.py): the order in which experts are shown, the
  colour each one is drawn with, and the loop that records answers in arrival order and
  re-summarises once two or more have arrived.
 */
module Titans {
  import opened Common
  import opened Text
  import opened Expert

  // ---- sort_key and sorted(...) ----

  /** The lower-cased name that always sorts first. */
  const BUFFETT: string := "warren buffett"

  /** The tuple `sort_key` returns: a group (0 or 1) and a lower-cased name. */
  datatype SortKey = SortKey(group: nat, name: string)

  predicate IsBuffett(name: string) {
    Lower(name) == BUFFETT
  }

  /** The name's first character is ASCII; the check only `sort_key` makes, so only for non-empty names. */
  predicate AsciiInitial(name: string)
    requires |name| > 0
  {
    IsAsciiChar(name[0])
  }

  /** `sort_key(expert)`, for a name it does not fail on. */
  function KeyOf(name: string): (k: SortKey)
    requires |name| > 0
    ensures k.group <= 1
    ensures k.group == 0 <==> IsBuffett(name) || AsciiInitial(name)
    ensures k.name == "" <==> IsBuffett(name)
    ensures !IsBuffett(name) ==> k.name == Lower(name)
  {
    if IsBuffett(name) then SortKey(0, "")
    else SortKey(if AsciiInitial(name) then 0 else 1, Lower(name))
  }

  /** Python's `<=` on the key tuples. */
  predicate KeyLe(a: SortKey, b: SortKey) {
    a.group < b.group || (a.group == b.group && LexLe(a.name, b.name))
  }

  lemma KeyLeTotal(a: SortKey, b: SortKey)
    ensures KeyLe(a, b) || KeyLe(b, a)
  {
    LexLeTotal(a.name, b.name);
  }

  lemma KeyLeTransitive(a: SortKey, b: SortKey, c: SortKey)
    requires KeyLe(a, b) && KeyLe(b, c)
    ensures KeyLe(a, c)
  {
    if a.group == b.group == c.group {
      LexLeTransitive(a.name, b.name, c.name);
    }
  }

  lemma KeyLeReflexive(a: SortKey)
    ensures KeyLe(a, a)
  {
    LexLeTotal(a.name, a.name);
  }

  /** Every expert has a non-empty name, so `sort_key` can be evaluated on each. */
  predicate AllNamed(s: seq<Agent>) {
    forall i :: 0 <= i < |s| ==> |s[i].name| > 0
  }

  predicate Sorted(s: seq<Agent>)
    requires AllNamed(s)
  {
    forall i, j :: 0 <= i < j < |s| ==> KeyLe(KeyOf(s[i].name), KeyOf(s[j].name))
  }

  /** The experts of `s` whose key is `k`, in the order of `s`. */
  function WithKey(s: seq<Agent>, k: SortKey): seq<Agent>
    requires AllNamed(s)
    decreases |s|
  {
    if |s| == 0 then []
    else (if KeyOf(s[0].name) == k then [s[0]] else []) + WithKey(s[1..], k)
  }

  /** Places `x` before the first expert whose key is not below its own. */
  function Insert(x: Agent, t: seq<Agent>): (r: seq<Agent>)
    requires |x.name| > 0 && AllNamed(t)
    ensures |r| == |t| + 1
    ensures multiset(r) == multiset(t) + multiset{x}
    ensures AllNamed(r)
    decreases |t|
  {
    if |t| == 0 then [x]
    else if KeyLe(KeyOf(x.name), KeyOf(t[0].name)) then [x] + t
    else
      assert t == [t[0]] + t[1..];
      [t[0]] + Insert(x, t[1..])
  }

  /** A stable sort by `sort_key`: the later experts are sorted first and each earlier one goes in front of its equals. */
  function SortByKey(s: seq<Agent>): (r: seq<Agent>)
    requires AllNamed(s)
    ensures |r| == |s|
    ensures multiset(r) == multiset(s)
    ensures AllNamed(r)
    decreases |s|
  {
    if |s| == 0 then []
    else
      assert s == [s[0]] + s[1..];
      Insert(s[0], SortByKey(s[1..]))
  }

  /** `sorted(experts, key=sort_key)`; `None` where `sort_key` raises `IndexError` on an empty name. */
  function SortExperts(experts: seq<Agent>): (r: Option<seq<Agent>>)
    ensures r.None? <==> exists i :: 0 <= i < |experts| && |experts[i].name| == 0
    ensures r.Some? ==> AllNamed(r.value) && multiset(r.value) == multiset(experts)
  {
    if AllNamed(experts) then Some(SortByKey(experts)) else None
  }

  /** A sorted sequence stays sorted behind an expert whose key is below all of its keys. */
  lemma ConsSorted(y: Agent, s: seq<Agent>)
    requires |y.name| > 0 && AllNamed(s) && Sorted(s)
    requires forall j :: 0 <= j < |s| ==> KeyLe(KeyOf(y.name), KeyOf(s[j].name))
    ensures AllNamed([y] + s) && Sorted([y] + s)
  {
    var r := [y] + s;
    assert forall i :: 0 < i < |r| ==> r[i] == s[i - 1];
  }

  /** Every expert in `Insert(x, t)` is `x` or one of `t`. */
  lemma InsertMembers(x: Agent, t: seq<Agent>, j: nat) returns (m: int)
    requires |x.name| > 0 && AllNamed(t)
    requires j < |Insert(x, t)|
    ensures Insert(x, t)[j] == x || (0 <= m < |t| && Insert(x, t)[j] == t[m])
  {
    var r := Insert(x, t);
    assert r[j] in multiset(r);
    m := -1;
    if r[j] != x {
      assert r[j] in multiset(t);
      m :| 0 <= m < |t| && t[m] == r[j];
    }
  }

  lemma {:induction false} InsertSorted(x: Agent, t: seq<Agent>)
    requires |x.name| > 0 && AllNamed(t) && Sorted(t)
    ensures Sorted(Insert(x, t))
    decreases |t|
  {
    if |t| == 0 {
    } else if KeyLe(KeyOf(x.name), KeyOf(t[0].name)) {
      forall j | 0 <= j < |t|
        ensures KeyLe(KeyOf(x.name), KeyOf(t[j].name))
      {
        if j > 0 {
          KeyLeTransitive(KeyOf(x.name), KeyOf(t[0].name), KeyOf(t[j].name));
        }
      }
      ConsSorted(x, t);
    } else {
      var rest := Insert(x, t[1..]);
      InsertSorted(x, t[1..]);
      KeyLeTotal(KeyOf(x.name), KeyOf(t[0].name));
      forall j | 0 <= j < |rest|
        ensures KeyLe(KeyOf(t[0].name), KeyOf(rest[j].name))
      {
        var m := InsertMembers(x, t[1..], j);
        if rest[j] != x {
          assert t[1..][m] == t[m + 1];
        }
      }
      ConsSorted(t[0], rest);
    }
  }

  /** The result of the sort is in key order. */
  lemma {:induction false} SortByKeySorted(s: seq<Agent>)
    requires AllNamed(s)
    ensures Sorted(SortByKey(s))
    decreases |s|
  {
    if |s| > 0 {
      SortByKeySorted(s[1..]);
      InsertSorted(s[0], SortByKey(s[1..]));
    }
  }

  lemma WithKeyCons(y: Agent, s: seq<Agent>, k: SortKey)
    requires |y.name| > 0 && AllNamed(s)
    ensures AllNamed([y] + s)
    ensures WithKey([y] + s, k) == (if KeyOf(y.name) == k then [y] else []) + WithKey(s, k)
  {
    assert ([y] + s)[1..] == s;
  }

  /** Inserting `x` adds it in front of its equals and leaves every other key's experts alone. */
  lemma {:induction false} InsertWithKey(x: Agent, t: seq<Agent>, k: SortKey)
    requires |x.name| > 0 && AllNamed(t)
    ensures WithKey(Insert(x, t), k) == (if KeyOf(x.name) == k then [x] else []) + WithKey(t, k)
    decreases |t|
  {
    if |t| == 0 {
    } else if KeyLe(KeyOf(x.name), KeyOf(t[0].name)) {
      WithKeyCons(x, t, k);
    } else {
      var rest := Insert(x, t[1..]);
      assert Insert(x, t) == [t[0]] + rest;
      InsertWithKey(x, t[1..], k);
      PassOverWithKey(x, t[0], rest, t[1..], k);
      assert [t[0]] + t[1..] == t;
    }
  }

  /** `x` passing over an expert `y` whose key is below its own does not reorder the experts of any one key. */
  lemma PassOverWithKey(x: Agent, y: Agent, rest: seq<Agent>, tail: seq<Agent>, k: SortKey)
    requires |x.name| > 0 && |y.name| > 0 && AllNamed(rest) && AllNamed(tail)
    requires !KeyLe(KeyOf(x.name), KeyOf(y.name))
    requires WithKey(rest, k) == (if KeyOf(x.name) == k then [x] else []) + WithKey(tail, k)
    ensures AllNamed([y] + rest) && AllNamed([y] + tail)
    ensures WithKey([y] + rest, k) == (if KeyOf(x.name) == k then [x] else []) + WithKey([y] + tail, k)
  {
    WithKeyCons(y, rest, k);
    WithKeyCons(y, tail, k);
    var kx, ky := KeyOf(x.name), KeyOf(y.name);
    if kx == k {
      KeyLeReflexive(k);
      assert ky != k;
      assert WithKey([y] + rest, k) == WithKey(rest, k);
      assert WithKey([y] + tail, k) == WithKey(tail, k);
    } else {
      assert WithKey(rest, k) == WithKey(tail, k);
    }
  }

  /** Stability: the experts sharing a key keep their input order. */
  lemma {:induction false} SortByKeyStable(s: seq<Agent>, k: SortKey)
    requires AllNamed(s)
    ensures WithKey(SortByKey(s), k) == WithKey(s, k)
    decreases |s|
  {
    if |s| > 0 {
      SortByKeyStable(s[1..], k);
      InsertWithKey(s[0], SortByKey(s[1..]), k);
    }
  }

  /** `sorted` with `sort_key`: a permutation, in key order, stable among equal keys. */
  lemma SortExpertsCorrect(experts: seq<Agent>)
    requires AllNamed(experts)
    ensures SortExperts(experts).Some?
    ensures Sorted(SortExperts(experts).value)
    ensures multiset(SortExperts(experts).value) == multiset(experts)
    ensures forall k :: WithKey(SortExperts(experts).value, k) == WithKey(experts, k)
  {
    SortByKeySorted(experts);
    forall k ensures WithKey(SortByKey(experts), k) == WithKey(experts, k) {
      SortByKeyStable(experts, k);
    }
  }

  /** Only Buffett's key is `(0, "")`; every other key has a non-empty name. */
  lemma LeastKeyIsBuffett(name: string)
    requires |name| > 0
    ensures KeyLe(KeyOf(name), SortKey(0, "")) <==> IsBuffett(name)
  {
  }

  /** If Warren Buffett is among the experts, the sorted list starts with him. */
  lemma BuffettFirst(experts: seq<Agent>, b: nat)
    requires AllNamed(experts)
    requires b < |experts| && IsBuffett(experts[b].name)
    ensures IsBuffett(SortExperts(experts).value[0].name)
  {
    SortExpertsCorrect(experts);
    var r := SortExperts(experts).value;
    assert experts[b] in multiset(r);
    var j :| 0 <= j < |r| && r[j] == experts[b];
    if j > 0 {
      assert KeyLe(KeyOf(r[0].name), KeyOf(r[j].name));
    }
    LeastKeyIsBuffett(r[0].name);
  }

  /** Buffett's name begins with an ASCII letter. */
  lemma BuffettIsAscii(name: string)
    requires |name| > 0 && IsBuffett(name)
    ensures AsciiInitial(name)
  {
    assert Lower(name)[0] == 'w';
  }

  /** Experts whose names begin with an ASCII character come before all the others. */
  lemma AsciiNamesFirst(experts: seq<Agent>, i: nat, j: nat)
    requires AllNamed(experts)
    requires i < j < |experts|
    ensures var r := SortExperts(experts).value;
            AsciiInitial(r[j].name) ==> AsciiInitial(r[i].name)
  {
    SortExpertsCorrect(experts);
    var r := SortExperts(experts).value;
    assert KeyLe(KeyOf(r[i].name), KeyOf(r[j].name));
    if IsBuffett(r[i].name) {
      BuffettIsAscii(r[i].name);
    }
  }

  /** Within one group, experts other than Buffett are in order of their lower-cased names. */
  lemma SameGroupByLowerName(experts: seq<Agent>, i: nat, j: nat)
    requires AllNamed(experts)
    requires i < j < |experts|
    ensures var r := SortExperts(experts).value;
            !IsBuffett(r[i].name) && !IsBuffett(r[j].name) && AsciiInitial(r[i].name) == AsciiInitial(r[j].name)
            ==> LexLe(Lower(r[i].name), Lower(r[j].name))
  {
    SortExpertsCorrect(experts);
    var r := SortExperts(experts).value;
    assert KeyLe(KeyOf(r[i].name), KeyOf(r[j].name));
  }

  /** The names of a list of experts, in its order. */
  function NamesOf(experts: seq<Agent>): (names: seq<string>)
    ensures |names| == |experts|
    ensures forall i :: 0 <= i < |experts| ==> names[i] == experts[i].name
  {
    seq(|experts|, i requires 0 <= i < |experts| => experts[i].name)
  }

  /** Charlie Munger and Warren Buffett, loaded in either order, are displayed Buffett first. */
  lemma PanelOrder(experts: seq<Agent>, buffett: Agent, munger: Agent)
    requires buffett.name == "Warren Buffett" && munger.name == "Charlie Munger"
    requires experts == [buffett, munger] || experts == [munger, buffett]
    ensures SortExperts(experts).Some?
    ensures NamesOf(SortExperts(experts).value) == ["Warren Buffett", "Charlie Munger"]
  {
    PanelNames();
    var b := if experts[0] == buffett then 0 else 1;
    assert multiset(experts) == multiset{buffett, munger};
    BuffettFirst(experts, b);
    var r := SortExperts(experts).value;
    assert r[0] in multiset(r);
    PairOrder(r, buffett, munger);
  }

  /** Of the two panel names, only Buffett's is Buffett's. */
  lemma PanelNames()
    ensures IsBuffett("Warren Buffett") && !IsBuffett("Charlie Munger")
  {
    assert Lower("Charlie Munger")[0] == 'c';
  }

  /** A two-element arrangement of `x` and `y` that starts with `x`'s name lists `x`, then `y`. */
  lemma PairOrder(r: seq<Agent>, x: Agent, y: Agent)
    requires multiset(r) == multiset{x, y} && x.name != y.name
    requires |r| > 0 && r[0].name == x.name
    ensures NamesOf(r) == [x.name, y.name]
  {
    assert |r| == 2 by {
      assert |multiset(r)| == |r|;
    }
    assert r == [r[0], r[1]];
    assert r[0] in multiset(r) && r[1] in multiset(r);
    assert r[0] == x;
    assert multiset{r[1]} == multiset(r) - multiset{r[0]};
  }

  // ---- expert colours ----

  const EXPERT_COLORS: seq<string> := [
    "#FFE4E1", "#E0FFFF", "#F0FFF0", "#FFF0F5", "#F5F5DC",
    "#F0F8FF", "#F5FFFA", "#FAEBD7", "#FFE4B5", "#E6E6FA"
  ]

  /** The colour `.get(name, ...)` falls back to for a name without an entry. */
  const FALLBACK_COLOR: string := "#F0F0F0"

  /** The entries the dict comprehension over `zip(names, colors)` has made after its first `k` pairs. */
  function ZipMap(names: seq<string>, colors: seq<string>, k: nat): (m: map<string, string>)
    requires k <= |names| && k <= |colors|
    ensures m.Keys == set i | 0 <= i < k :: names[i]
    decreases k
  {
    if k == 0 then map[] else ZipMap(names, colors, k - 1)[names[k - 1] := colors[k - 1]]
  }

  /** `expert_colors`: each expert name, in load order, against the palette; the pairing stops at the shorter. */
  function ColorMap(names: seq<string>): (m: map<string, string>)
    ensures m.Keys == set i | 0 <= i < Min(|names|, |EXPERT_COLORS|) :: names[i]
    ensures forall n :: n in m ==> m[n] in EXPERT_COLORS
  {
    var k := Min(|names|, |EXPERT_COLORS|);
    ZipMapValues(names, EXPERT_COLORS, k);
    assert forall c :: c in EXPERT_COLORS[..k] ==> c in EXPERT_COLORS;
    ZipMap(names, EXPERT_COLORS, k)
  }

  /** `expert_colors.get(name, "#F0F0F0")`. */
  function ColorFor(colors: map<string, string>, name: string): (c: string)
    ensures c in colors.Values || c == FALLBACK_COLOR
    ensures name in colors ==> c == colors[name]
    ensures name !in colors ==> c == FALLBACK_COLOR
  {
    if name in colors then colors[name] else FALLBACK_COLOR
  }

  /** A later pair overrides an earlier one with the same name: each name gets the colour of its last position. */
  lemma {:induction false} ZipMapLastWins(names: seq<string>, colors: seq<string>, k: nat, i: nat)
    requires k <= |names| && k <= |colors|
    requires i < k
    requires forall j :: i < j < k ==> names[j] != names[i]
    ensures ZipMap(names, colors, k)[names[i]] == colors[i]
    decreases k
  {
    if i < k - 1 {
      ZipMapLastWins(names, colors, k - 1, i);
    }
  }

  /** With distinct names, the expert at position `i` below ten gets the `i`-th palette colour. */
  lemma ColorByPosition(names: seq<string>, i: nat)
    requires forall a, b :: 0 <= a < b < |names| ==> names[a] != names[b]
    requires i < |names| && i < |EXPERT_COLORS|
    ensures ColorFor(ColorMap(names), names[i]) == EXPERT_COLORS[i]
  {
    ZipMapLastWins(names, EXPERT_COLORS, Min(|names|, |EXPERT_COLORS|), i);
  }

  /** A name not among the first ten experts is drawn with the fallback colour. */
  lemma ColorFallback(names: seq<string>, name: string)
    requires forall i :: 0 <= i < |names| && i < |EXPERT_COLORS| ==> names[i] != name
    ensures ColorFor(ColorMap(names), name) == FALLBACK_COLOR
  {
  }

  /** Every colour used is from the palette or the fallback. */
  lemma {:induction false} ZipMapValues(names: seq<string>, colors: seq<string>, k: nat)
    requires k <= |names| && k <= |colors|
    ensures forall n :: n in ZipMap(names, colors, k) ==> ZipMap(names, colors, k)[n] in colors[..k]
    decreases k
  {
    if k > 0 {
      ZipMapValues(names, colors, k - 1);
      assert colors[..k - 1] <= colors[..k];
    }
  }

  lemma ColorsFromPalette(names: seq<string>, name: string)
    ensures ColorFor(ColorMap(names), name) in EXPERT_COLORS || ColorFor(ColorMap(names), name) == FALLBACK_COLOR
  {
  }

  // ---- process_responses ----

  /** One answer as `get_responses_async` yields it: the expert and its reply. */
  datatype Arrival = Arrival(name: string, avatar: string, response: string)

  /** An entry of `st.session_state.messages`. */
  datatype Message = Message(role: string, content: string, avatar: string)

  /** The message `process_responses` records for an answer. */
  function MessageOf(a: Arrival): Message {
    Message(a.name, a.response, a.avatar)
  }

  /** The number of answers before the first summary is requested. */
  const QUORUM: nat := 2

  /** The text the summary panel shows when the summary call itself raises. */
  const SUMMARY_ERROR_TEXT: string := "抱歉，生成总结时出现错误，请稍后再试。"

  /** What awaiting `generate_summary` produced: its return value, or an exception. */
  datatype SummaryOutcome = Returned(reply: SummaryReply) | SummaryRaised

  function SummaryText(o: SummaryOutcome): string {
    match o
    case Returned(r) => GenerateSummary(r)
    case SummaryRaised => SUMMARY_ERROR_TEXT
  }

  /**
    The state of one round after some answers: the messages log, the `responses` list,
    the prompt of every summary call made, and the text in the summary panel.
   */
  datatype Round = Round(messages: seq<Message>, responses: seq<string>, summaryPrompts: seq<string>, summary: Option<string>)

  /** The names of the experts that answered, in arrival order. */
  function AnsweredNames(arrivals: seq<Arrival>): (names: seq<string>)
    ensures |names| == |arrivals|
    ensures forall i :: 0 <= i < |arrivals| ==> names[i] == arrivals[i].name
  {
    seq(|arrivals|, i requires 0 <= i < |arrivals| => arrivals[i].name)
  }

  /** The responses of the answers, in arrival order. */
  function ResponsesOf(arrivals: seq<Arrival>): (responses: seq<string>)
    ensures |responses| == |arrivals|
    ensures forall i :: 0 <= i < |arrivals| ==> responses[i] == arrivals[i].response
    decreases |arrivals|
  {
    if |arrivals| == 0 then []
    else ResponsesOf(arrivals[..|arrivals| - 1]) + [arrivals[|arrivals| - 1].response]
  }

  /**
    The summary lines as app.py builds them: `zip(sorted_experts[:len(responses)], responses)`,
    pairing the responses, in arrival order, with the first experts of the sorted list.
   */
  function SummaryLinesAsWritten(sortedNames: seq<string>, responses: seq<string>): (lines: seq<string>)
    ensures |lines| == Min(|sortedNames|, |responses|)
    ensures forall i :: 0 <= i < |lines| ==> lines[i] == sortedNames[i] + "：" + responses[i]
  {
    SummaryLines(sortedNames[..Min(|sortedNames|, |responses|)], responses)
  }

  /**
    The loop of `process_responses` as written, over the answers in arrival order and
    starting from the message log `log`. `sortedNames` are the names of `sorted_experts`;
    summary call `j` (counting from 0) is answered by `outcome(j)`.
   */
  function ProcessResponses(log: seq<Message>, sortedNames: seq<string>, arrivals: seq<Arrival>, outcome: nat -> SummaryOutcome): (r: Round)
    ensures |r.responses| == |arrivals| && |r.messages| == |log| + |arrivals|
    decreases |arrivals|
  {
    if |arrivals| == 0 then Round(log, [], [], None)
    else
      var prev := ProcessResponses(log, sortedNames, arrivals[..|arrivals| - 1], outcome);
      Arrive(prev, arrivals[|arrivals| - 1], sortedNames, outcome)
  }

  /** One pass of the loop body: record the answer, then summarise once the quorum is reached. */
  function Arrive(prev: Round, a: Arrival, sortedNames: seq<string>, outcome: nat -> SummaryOutcome): (r: Round)
    ensures r.responses == prev.responses + [a.response]
    ensures r.messages == prev.messages + [MessageOf(a)]
    ensures |r.responses| < QUORUM ==> r.summaryPrompts == prev.summaryPrompts && r.summary == prev.summary
    ensures |r.responses| >= QUORUM ==>
              && r.summaryPrompts == prev.summaryPrompts + [SummaryPrompt(SummaryLinesAsWritten(sortedNames, r.responses))]
              && r.summary == Some(SummaryText(outcome(|prev.summaryPrompts|)))
  {
    var responses := prev.responses + [a.response];
    var messages := prev.messages + [MessageOf(a)];
    if |responses| >= QUORUM then
      var prompts := prev.summaryPrompts + [SummaryPrompt(SummaryLinesAsWritten(sortedNames, responses))];
      Round(messages, responses, prompts, Some(SummaryText(outcome(|prompts| - 1))))
    else Round(messages, responses, prev.summaryPrompts, prev.summary)
  }

  /**
    The corrected loop: each response is paired with the expert that gave it, that is,
    the loop as written fed the names in arrival order instead of the sorted ones. Only
    the prompts differ from the loop as written.
   */
  function ProcessResponsesAttributed(log: seq<Message>, arrivals: seq<Arrival>, outcome: nat -> SummaryOutcome): (r: Round)
    ensures forall names :: ProcessResponses(log, names, arrivals, outcome).messages == r.messages
    ensures forall names :: ProcessResponses(log, names, arrivals, outcome).responses == r.responses
    ensures forall names :: ProcessResponses(log, names, arrivals, outcome).summary == r.summary
  {
    var r := ProcessResponses(log, AnsweredNames(arrivals), arrivals, outcome);
    assert forall names :: ProcessResponses(log, names, arrivals, outcome).messages == r.messages
                        && ProcessResponses(log, names, arrivals, outcome).responses == r.responses
                        && ProcessResponses(log, names, arrivals, outcome).summary == r.summary by {
      forall names
        ensures ProcessResponses(log, names, arrivals, outcome).messages == r.messages
        ensures ProcessResponses(log, names, arrivals, outcome).responses == r.responses
        ensures ProcessResponses(log, names, arrivals, outcome).summary == r.summary
      {
        NamesOnlyAffectPrompts(log, names, AnsweredNames(arrivals), arrivals, outcome);
      }
    }
    r
  }

  /** The summary lines that pair each of the first `n` answers with the expert that gave it. */
  function AttributedLines(arrivals: seq<Arrival>, n: nat): (lines: seq<string>)
    requires n <= |arrivals|
    ensures |lines| == n
    ensures forall i :: 0 <= i < n ==> lines[i] == arrivals[i].name + "：" + arrivals[i].response
  {
    seq(n, i requires 0 <= i < n => arrivals[i].name + "：" + arrivals[i].response)
  }

  /** The messages recorded for the answers, in arrival order. */
  function MessagesOf(arrivals: seq<Arrival>): (ms: seq<Message>)
    ensures |ms| == |arrivals|
    ensures forall i :: 0 <= i < |arrivals| ==> ms[i] == MessageOf(arrivals[i])
    decreases |arrivals|
  {
    if |arrivals| == 0 then []
    else MessagesOf(arrivals[..|arrivals| - 1]) + [MessageOf(arrivals[|arrivals| - 1])]
  }

  /** The name list only reaches the prompts: the log, the responses, the panel and the number of calls do not depend on it. */
  lemma {:induction false} NamesOnlyAffectPrompts(log: seq<Message>, names1: seq<string>, names2: seq<string>,
                                                  arrivals: seq<Arrival>, outcome: nat -> SummaryOutcome)
    ensures ProcessResponses(log, names1, arrivals, outcome).messages == ProcessResponses(log, names2, arrivals, outcome).messages
    ensures ProcessResponses(log, names1, arrivals, outcome).responses == ProcessResponses(log, names2, arrivals, outcome).responses
    ensures ProcessResponses(log, names1, arrivals, outcome).summary == ProcessResponses(log, names2, arrivals, outcome).summary
    ensures |ProcessResponses(log, names1, arrivals, outcome).summaryPrompts|
         == |ProcessResponses(log, names2, arrivals, outcome).summaryPrompts|
    decreases |arrivals|
  {
    if |arrivals| > 0 {
      NamesOnlyAffectPrompts(log, names1, names2, arrivals[..|arrivals| - 1], outcome);
    }
  }

  /** Every answer is appended to the log and to `responses`, in arrival order, whatever the summaries do. */
  lemma {:induction false} RoundLog(log: seq<Message>, sortedNames: seq<string>, arrivals: seq<Arrival>, outcome: nat -> SummaryOutcome)
    ensures ProcessResponses(log, sortedNames, arrivals, outcome).responses == ResponsesOf(arrivals)
    ensures ProcessResponses(log, sortedNames, arrivals, outcome).messages == log + MessagesOf(arrivals)
    decreases |arrivals|
  {
    if |arrivals| > 0 {
      var init, last := arrivals[..|arrivals| - 1], arrivals[|arrivals| - 1];
      RoundLog(log, sortedNames, init, outcome);
      assert MessagesOf(arrivals) == MessagesOf(init) + [MessageOf(last)];
      assert log + MessagesOf(arrivals) == (log + MessagesOf(init)) + [MessageOf(last)];
    }
  }

  /**
    As written: one summary call per answer from the second on; call `j` (from 0) zips the
    first `j + 2` responses, in arrival order, with the first names of the sorted list.
   */
  lemma {:induction false} RoundPromptsAsWritten(log: seq<Message>, sortedNames: seq<string>, arrivals: seq<Arrival>,
                                                 outcome: nat -> SummaryOutcome)
    ensures var r := ProcessResponses(log, sortedNames, arrivals, outcome);
            && |r.summaryPrompts| == (if |arrivals| >= QUORUM then |arrivals| - 1 else 0)
            && (forall j :: 0 <= j < |r.summaryPrompts| ==>
                  r.summaryPrompts[j] == SummaryPrompt(SummaryLinesAsWritten(sortedNames, ResponsesOf(arrivals)[..j + 2])))
    decreases |arrivals|
  {
    if |arrivals| > 0 {
      var n := |arrivals|;
      var init := arrivals[..n - 1];
      RoundPromptsAsWritten(log, sortedNames, init, outcome);
      RoundLog(log, sortedNames, arrivals, outcome);
      var all := ResponsesOf(arrivals);
      assert ResponsesOf(init) == all[..n - 1];
      var prev := ProcessResponses(log, sortedNames, init, outcome);
      if n >= QUORUM {
        assert all[..n] == all;
        PromptsExtend(prev.summaryPrompts, SummaryPrompt(SummaryLinesAsWritten(sortedNames, all)), sortedNames, all);
      }
    }
  }

  /** Appending the prompt over all responses to the prompts over the shorter prefixes. */
  lemma PromptsExtend(earlier: seq<string>, last: string, sortedNames: seq<string>, all: seq<string>)
    requires |all| >= QUORUM && |earlier| == |all| - 2
    requires forall j :: 0 <= j < |earlier| ==>
               earlier[j] == SummaryPrompt(SummaryLinesAsWritten(sortedNames, all[..|all| - 1][..j + 2]))
    requires last == SummaryPrompt(SummaryLinesAsWritten(sortedNames, all))
    ensures forall j :: 0 <= j < |earlier| + 1 ==>
              (earlier + [last])[j] == SummaryPrompt(SummaryLinesAsWritten(sortedNames, all[..j + 2]))
  {
    forall j | 0 <= j < |earlier| + 1
      ensures (earlier + [last])[j] == SummaryPrompt(SummaryLinesAsWritten(sortedNames, all[..j + 2]))
    {
      if j < |earlier| {
        assert all[..|all| - 1][..j + 2] == all[..j + 2];
      } else {
        assert all[..j + 2] == all;
      }
    }
  }

  /** Zipping the first `m` responses with the names in arrival order attributes each one correctly. */
  lemma ArrivalNamesAttribute(arrivals: seq<Arrival>, m: nat)
    requires m <= |arrivals|
    ensures SummaryLinesAsWritten(AnsweredNames(arrivals), ResponsesOf(arrivals)[..m]) == AttributedLines(arrivals, m)
  {
    var names := AnsweredNames(arrivals);
    var responses := ResponsesOf(arrivals)[..m];
    assert forall i :: 0 <= i < m ==> responses[i] == arrivals[i].response;
    PairsAttribute(names, responses, arrivals);
  }

  /** Zipping names and responses that agree, index by index, with the answers gives the attributed lines. */
  lemma PairsAttribute(names: seq<string>, responses: seq<string>, arrivals: seq<Arrival>)
    requires |responses| <= |names| && |responses| <= |arrivals|
    requires forall i :: 0 <= i < |responses| ==> names[i] == arrivals[i].name
    requires forall i :: 0 <= i < |responses| ==> responses[i] == arrivals[i].response
    ensures SummaryLinesAsWritten(names, responses) == AttributedLines(arrivals, |responses|)
  {
    var zipped := SummaryLinesAsWritten(names, responses);
    var attributed := AttributedLines(arrivals, |responses|);
    assert |zipped| == |attributed|;
    forall i | 0 <= i < |responses|
      ensures zipped[i] == attributed[i]
    {
    }
  }

  /**
    Corrected: one summary call per answer from the second on; call `j` (from 0) sends the
    prompt built from the first `j + 2` answers, each under the name of the expert that gave it.
   */
  lemma RoundPrompts(log: seq<Message>, arrivals: seq<Arrival>, outcome: nat -> SummaryOutcome)
    ensures var r := ProcessResponsesAttributed(log, arrivals, outcome);
            && |r.summaryPrompts| == (if |arrivals| >= QUORUM then |arrivals| - 1 else 0)
            && (forall j :: 0 <= j < |r.summaryPrompts| ==>
                  r.summaryPrompts[j] == SummaryPrompt(AttributedLines(arrivals, j + 2)))
  {
    var names := AnsweredNames(arrivals);
    RoundPromptsAsWritten(log, names, arrivals, outcome);
    var p := ProcessResponses(log, names, arrivals, outcome).summaryPrompts;
    assert ProcessResponsesAttributed(log, arrivals, outcome).summaryPrompts == p;
    forall j | 0 <= j < |p|
      ensures p[j] == SummaryPrompt(AttributedLines(arrivals, j + 2))
    {
      ArrivalNamesAttribute(arrivals, j + 2);
    }
  }

  /** When the answers arrive in the sorted order, the loop as written attributes every answer correctly. */
  lemma AgreesInSortedOrder(log: seq<Message>, sortedNames: seq<string>, arrivals: seq<Arrival>, outcome: nat -> SummaryOutcome)
    requires |arrivals| <= |sortedNames|
    requires forall i :: 0 <= i < |arrivals| ==> sortedNames[i] == arrivals[i].name
    ensures ProcessResponses(log, sortedNames, arrivals, outcome) == ProcessResponsesAttributed(log, arrivals, outcome)
  {
    SameNamesSameRound(log, sortedNames, AnsweredNames(arrivals), arrivals, outcome);
  }

  /** Two name lists that agree on as many entries as there are answers give the same round. */
  lemma {:induction false} SameNamesSameRound(log: seq<Message>, names1: seq<string>, names2: seq<string>,
                                              arrivals: seq<Arrival>, outcome: nat -> SummaryOutcome)
    requires |arrivals| <= |names1| && |arrivals| <= |names2|
    requires forall i :: 0 <= i < |arrivals| ==> names1[i] == names2[i]
    ensures ProcessResponses(log, names1, arrivals, outcome) == ProcessResponses(log, names2, arrivals, outcome)
    decreases |arrivals|
  {
    if |arrivals| > 0 {
      var init := arrivals[..|arrivals| - 1];
      SameNamesSameRound(log, names1, names2, init, outcome);
      var prev := ProcessResponses(log, names1, init, outcome);
      ZipAgrees(names1, names2, prev.responses + [arrivals[|arrivals| - 1].response]);
    }
  }

  /** Zipping with names that agree on as many entries as there are responses gives the same lines. */
  lemma ZipAgrees(names1: seq<string>, names2: seq<string>, responses: seq<string>)
    requires |responses| <= |names1| && |responses| <= |names2|
    requires forall i :: 0 <= i < |responses| ==> names1[i] == names2[i]
    ensures SummaryLinesAsWritten(names1, responses) == SummaryLinesAsWritten(names2, responses)
  {
    var l1, l2 := SummaryLinesAsWritten(names1, responses), SummaryLinesAsWritten(names2, responses);
    assert |l1| == |l2|;
    forall i | 0 <= i < |l1|
      ensures l1[i] == l2[i]
    {
    }
  }

  /** The panel is empty before the quorum and afterwards shows the outcome of the latest call. */
  lemma {:induction false} RoundSummary(log: seq<Message>, sortedNames: seq<string>, arrivals: seq<Arrival>, outcome: nat -> SummaryOutcome)
    ensures var r := ProcessResponses(log, sortedNames, arrivals, outcome);
            && (r.summary.Some? <==> |arrivals| >= QUORUM)
            && (|arrivals| >= QUORUM ==> r.summary == Some(SummaryText(outcome(|arrivals| - 2))))
    decreases |arrivals|
  {
    if |arrivals| > 0 {
      var init := arrivals[..|arrivals| - 1];
      RoundSummary(log, sortedNames, init, outcome);
      PromptCount(log, sortedNames, init, outcome);
    }
  }

  /** One summary call per answer from the second on. */
  lemma {:induction false} PromptCount(log: seq<Message>, sortedNames: seq<string>, arrivals: seq<Arrival>, outcome: nat -> SummaryOutcome)
    ensures |ProcessResponses(log, sortedNames, arrivals, outcome).summaryPrompts| == (if |arrivals| >= QUORUM then |arrivals| - 1 else 0)
    decreases |arrivals|
  {
    if |arrivals| > 0 {
      PromptCount(log, sortedNames, arrivals[..|arrivals| - 1], outcome);
    }
  }

  /** Corrected: once the quorum is reached, the latest summary request names every answer so far with the expert that gave it. */
  lemma LastSummaryCoversAll(log: seq<Message>, arrivals: seq<Arrival>, outcome: nat -> SummaryOutcome)
    requires |arrivals| >= QUORUM
    ensures var r := ProcessResponsesAttributed(log, arrivals, outcome);
            r.summaryPrompts[|r.summaryPrompts| - 1] == SummaryPrompt(AttributedLines(arrivals, |arrivals|))
  {
    RoundPrompts(log, arrivals, outcome);
  }

  /** How the summary calls turn out never changes the messages, the responses or the prompts sent. */
  lemma {:induction false} SummaryOutcomeIrrelevant(log: seq<Message>, sortedNames: seq<string>, arrivals: seq<Arrival>,
                                                    o1: nat -> SummaryOutcome, o2: nat -> SummaryOutcome)
    ensures ProcessResponses(log, sortedNames, arrivals, o1).messages == ProcessResponses(log, sortedNames, arrivals, o2).messages
    ensures ProcessResponses(log, sortedNames, arrivals, o1).responses == ProcessResponses(log, sortedNames, arrivals, o2).responses
    ensures ProcessResponses(log, sortedNames, arrivals, o1).summaryPrompts
         == ProcessResponses(log, sortedNames, arrivals, o2).summaryPrompts
    decreases |arrivals|
  {
    if |arrivals| > 0 {
      SummaryOutcomeIrrelevant(log, sortedNames, arrivals[..|arrivals| - 1], o1, o2);
    }
  }

  /**
    Munger and Buffett on the panel, loaded in either order and sorted by `sort_key`, Munger
    answering first: the loop as written, given the panel in display order, asks for a summary that puts Munger's answer under Buffett's
    name and Buffett's under Munger's, where the corrected loop does not.
   */
  lemma MisattributedRound(log: seq<Message>, experts: seq<Agent>, buffett: Agent, munger: Agent,
                           buffettSays: string, mungerSays: string, outcome: nat -> SummaryOutcome)
    requires buffett.name == "Warren Buffett" && munger.name == "Charlie Munger"
    requires experts == [buffett, munger] || experts == [munger, buffett]
    ensures SortExperts(experts).Some?
    ensures var arrivals := [Arrival("Charlie Munger", "", mungerSays), Arrival("Warren Buffett", "", buffettSays)];
            var asWritten := ProcessResponses(log, NamesOf(SortExperts(experts).value), arrivals, outcome);
            var corrected := ProcessResponsesAttributed(log, arrivals, outcome);
            && |asWritten.summaryPrompts| == 1 && |corrected.summaryPrompts| == 1
            && asWritten.summaryPrompts[0]
               == SummaryPrompt(["Warren Buffett" + "：" + mungerSays, "Charlie Munger" + "：" + buffettSays])
            && asWritten.summaryPrompts[0] != corrected.summaryPrompts[0]
  {
    PanelOrder(experts, buffett, munger);
    MisattributedPrompt(log, buffettSays, mungerSays, outcome);
  }

  /** The prompts of the round above, for the panel in display order. */
  lemma MisattributedPrompt(log: seq<Message>, buffettSays: string, mungerSays: string, outcome: nat -> SummaryOutcome)
    ensures var arrivals := [Arrival("Charlie Munger", "", mungerSays), Arrival("Warren Buffett", "", buffettSays)];
            var asWritten := ProcessResponses(log, ["Warren Buffett", "Charlie Munger"], arrivals, outcome);
            var corrected := ProcessResponsesAttributed(log, arrivals, outcome);
            && |asWritten.summaryPrompts| == 1 && |corrected.summaryPrompts| == 1
            && asWritten.summaryPrompts[0]
               == SummaryPrompt(["Warren Buffett" + "：" + mungerSays, "Charlie Munger" + "：" + buffettSays])
            && asWritten.summaryPrompts[0] != corrected.summaryPrompts[0]
  {
    var arrivals := [Arrival("Charlie Munger", "", mungerSays), Arrival("Warren Buffett", "", buffettSays)];
    var sorted := ["Warren Buffett", "Charlie Munger"];
    RoundPromptsAsWritten(log, sorted, arrivals, outcome);
    RoundPrompts(log, arrivals, outcome);
    var all := ResponsesOf(arrivals);
    assert all[..2] == [mungerSays, buffettSays];
    var wrong := SummaryLinesAsWritten(sorted, all[..2]);
    var right := AttributedLines(arrivals, 2);
    assert wrong == ["Warren Buffett" + "：" + mungerSays, "Charlie Munger" + "：" + buffettSays];
    var p := SummaryPrompt(wrong);
    var q := SummaryPrompt(right);
    var k := |SUMMARY_INTRO|;
    assert p[k] == Join(wrong, "\n")[0] == wrong[0][0] == 'W';
    assert q[k] == Join(right, "\n")[0] == right[0][0] == 'C';
  }
}

=== FILE: truncation.dfy ===
/**
  Token-budget truncation of an expert's knowledge text (`truncate_text` in utils/expert.py).

  The tokenizer is a parameter with three fields: `encode` and `decode`, any total functions
  between strings and token sequences, and `encodes`, which tells whether `encode` returns on
  a text at all (tiktoken raises on text holding a special token). Nothing below depends on
  how it splits text.
 */
module Truncation {
  import opened Common
  import opened Text

  type Token = nat

  /**
    The tokenizer the agent counts and slices with (`encoding.encode` / `encoding.decode`).
    `encodes(text)` is false for a text on which `encode` raises instead of returning
    (tiktoken refuses text containing a special token such as `<|endoftext|>`).
   */
  datatype Tokenizer = Tokenizer(encode: string -> seq<Token>, decode: seq<Token> -> string, encodes: string -> bool)

  /** `len(encoding.encode(text))`. */
  function CountTokens(tok: Tokenizer, text: string): nat {
    |tok.encode(text)|
  }

  /** Where a Python slice bound `i` lands in a sequence of length `n`: negative bounds count from the end, then clamp. */
  function SliceBound(i: int, n: nat): (k: nat)
    ensures k <= n
    ensures 0 <= i <= n ==> k == i
    ensures 0 - n <= i < 0 ==> k == i + n
    ensures i < 0 - n ==> k == 0
    ensures i > n ==> k == n
  {
    if i < 0 then (if i + n < 0 then 0 else i + n) else if i > n then n else i
  }

  /** Python's `s[i:j]`. */
  function PySlice<T>(s: seq<T>, i: int, j: int): (r: seq<T>)
    ensures |r| <= |s|
    ensures 0 <= i <= j <= |s| ==> r == s[i..j]
    ensures |r| == Max(SliceBound(j, |s|) - SliceBound(i, |s|), 0)
    ensures forall k :: 0 <= k < |r| ==> r[k] == s[SliceBound(i, |s|) + k]
  {
    var a := SliceBound(i, |s|);
    var b := SliceBound(j, |s|);
    if a < b then s[a..b] else []
  }

  /** How many tokens are elided before and after the kept middle. */
  datatype Plan = Plan(front: nat, back: nat)

  /**
    The elision plan for a text of `total` tokens under a budget of `maxTokens`:
    none when the text fits; otherwise the excess is split 30% in front (rounded down)
    and the rest behind.
   */
  function PlanTruncation(total: nat, maxTokens: int): (p: Option<Plan>)
    ensures p.None? <==> total <= maxTokens
    ensures p.Some? ==> p.value.front + p.value.back == total - maxTokens
    ensures p.Some? ==> 10 * p.value.front <= 3 * (total - maxTokens) < 10 * (p.value.front + 1)
    ensures p.Some? ==> p.value.front <= p.value.back
  {
    if total <= maxTokens then None
    else
      var remove := total - maxTokens;
      var front := (3 * remove) / 10;
      Some(Plan(front, remove - front))
  }

  const FRONT_OPEN: string := "...[前面已省略 "
  const FRONT_CLOSE: string := " tokens]...\n\n"
  const BACK_OPEN: string := "\n\n...[后面已省略 "
  const BACK_CLOSE: string := " tokens]..."

  function FrontMarker(n: nat): string {
    FRONT_OPEN + NatToString(n) + FRONT_CLOSE
  }

  function BackMarker(n: nat): string {
    BACK_OPEN + NatToString(n) + BACK_CLOSE
  }

  predicate StartsWith(s: string, prefix: string) {
    |prefix| <= |s| && s[..|prefix|] == prefix
  }

  predicate EndsWith(s: string, suffix: string) {
    |suffix| <= |s| && s[|s| - |suffix|..] == suffix
  }

  /** `truncate_text(text, max_tokens)`. */
  function Truncate(tok: Tokenizer, text: string, maxTokens: int): (r: string)
    ensures CountTokens(tok, text) <= maxTokens ==> r == text
    ensures CountTokens(tok, text) > maxTokens ==> StartsWith(r, FRONT_OPEN) && EndsWith(r, BACK_CLOSE)
  {
    var tokens := tok.encode(text);
    match PlanTruncation(|tokens|, maxTokens)
    case None => text
    case Some(p) =>
      var r := FrontMarker(p.front) + tok.decode(PySlice(tokens, p.front, |tokens| - p.back)) + BackMarker(p.back);
      assert r[..|FRONT_OPEN|] == FRONT_OPEN;
      assert r[|r| - |BACK_CLOSE|..] == BACK_CLOSE;
      r
  }

  /**
    With a non-negative budget that the text exceeds, the result keeps exactly `maxTokens`
    contiguous tokens, bracketed by one marker per side; the front and back regions plus
    the kept middle are the whole token sequence.
   */
  lemma TruncationKeepsMiddle(tok: Tokenizer, text: string, maxTokens: int) returns (front: nat, back: nat)
    requires 0 <= maxTokens < CountTokens(tok, text)
    ensures front + back == CountTokens(tok, text) - maxTokens
    ensures 10 * front <= 3 * (front + back) < 10 * front + 10
    ensures front <= back
    ensures Truncate(tok, text, maxTokens)
         == FrontMarker(front) + tok.decode(tok.encode(text)[front..front + maxTokens]) + BackMarker(back)
    ensures tok.encode(text)
         == tok.encode(text)[..front] + tok.encode(text)[front..front + maxTokens] + tok.encode(text)[front + maxTokens..]
    ensures |tok.encode(text)[front + maxTokens..]| == back
  {
    var tokens := tok.encode(text);
    var p := PlanTruncation(|tokens|, maxTokens).value;
    front, back := p.front, p.back;
    assert PySlice(tokens, front, |tokens| - back) == tokens[front..front + maxTokens];
    assert tokens == tokens[..front] + tokens[front..front + maxTokens] + tokens[front + maxTokens..];
  }

  /** The elided count written in the front marker, if `s` starts with one. */
  function ReadFrontCount(s: string): Option<nat> {
    if !StartsWith(s, FRONT_OPEN) then None
    else
      var rest := s[|FRONT_OPEN|..];
      var k := LeadingDigitCount(rest);
      if k == 0 then None else Some(ParseDigits(rest[..k]))
  }

  /** The elided count written in the back marker, if `s` ends with one. */
  function ReadBackCount(s: string): Option<nat> {
    if !EndsWith(s, BACK_CLOSE) then None
    else
      var body := s[..|s| - |BACK_CLOSE|];
      var k := TrailingDigitCount(body);
      if k == 0 then None else Some(ParseDigits(body[|body| - k..]))
  }

  /** Prepending `prefix` and then cutting it off again gives back `rest`. */
  lemma CutPrefix(prefix: string, rest: string)
    ensures StartsWith(prefix + rest, prefix)
    ensures (prefix + rest)[|prefix|..] == rest
  {
    assert (prefix + rest)[..|prefix|] == prefix;
  }

  lemma ReadFrontMarker(n: nat, rest: string)
    ensures ReadFrontCount(FrontMarker(n) + rest) == Some(n)
  {
    var digits := NatToString(n);
    var tail := FRONT_CLOSE + rest;
    assert FrontMarker(n) + rest == FRONT_OPEN + (digits + tail);
    CutPrefix(FRONT_OPEN, digits + tail);
    assert tail[0] == ' ';
    LeadingDigitsOf(digits, tail);
    assert (digits + tail)[..|digits|] == digits;
    ParseNatToString(n);
  }

  /** Appending `suffix` and then cutting it off again gives back `body`. */
  lemma CutSuffix(body: string, suffix: string)
    ensures EndsWith(body + suffix, suffix)
    ensures (body + suffix)[..|body + suffix| - |suffix|] == body
  {
    assert (body + suffix)[|body|..] == suffix;
  }

  lemma ReadBackMarker(prefix: string, n: nat)
    ensures ReadBackCount(prefix + BackMarker(n)) == Some(n)
  {
    var digits := NatToString(n);
    var head := prefix + BACK_OPEN;
    var body := head + digits;
    assert prefix + BackMarker(n) == body + BACK_CLOSE;
    CutSuffix(body, BACK_CLOSE);
    assert head[|head| - 1] == ' ';
    TrailingDigitsOf(head, digits);
    assert body[|body| - |digits|..] == digits;
    ParseNatToString(n);
  }

  /** A text framed by a front and a back marker reads back both counts. */
  lemma ReadMarkers(front: nat, middle: string, back: nat)
    ensures ReadFrontCount(FrontMarker(front) + middle + BackMarker(back)) == Some(front)
    ensures ReadBackCount(FrontMarker(front) + middle + BackMarker(back)) == Some(back)
  {
    assert FrontMarker(front) + middle + BackMarker(back) == FrontMarker(front) + (middle + BackMarker(back));
    ReadFrontMarker(front, middle + BackMarker(back));
    ReadBackMarker(FrontMarker(front) + middle, back);
  }

  /**
    The two markers of a truncated text carry the elided counts, and reading them back
    accounts for every token removed.
   */
  lemma TruncationMarkersCarryCounts(tok: Tokenizer, text: string, maxTokens: int)
    requires CountTokens(tok, text) > maxTokens
    ensures ReadFrontCount(Truncate(tok, text, maxTokens)).Some?
    ensures ReadBackCount(Truncate(tok, text, maxTokens)).Some?
    ensures ReadFrontCount(Truncate(tok, text, maxTokens)).value
          + ReadBackCount(Truncate(tok, text, maxTokens)).value == CountTokens(tok, text) - maxTokens
    ensures 10 * ReadFrontCount(Truncate(tok, text, maxTokens)).value <= 3 * (CountTokens(tok, text) - maxTokens)
  {
    var tokens := tok.encode(text);
    var p := PlanTruncation(|tokens|, maxTokens).value;
    var middle := tok.decode(PySlice(tokens, p.front, |tokens| - p.back));
    assert Truncate(tok, text, maxTokens) == FrontMarker(p.front) + middle + BackMarker(p.back);
    ReadMarkers(p.front, middle, p.back);
  }
}

=== FILE: window.dfy ===
/**
  The sliding one-minute window shared by the quota tracker (`clean_old_requests` in
  utils/quota.py) and the Gemini limiter (`can_make_request` in utils/gemini_handler.py).
  Both keep exactly the timestamps strictly newer than `now - window`, in order.
  Timestamps are integers in microseconds, the resolution of Python's `datetime`.
 */
module Window {

  const SECOND: int := 1_000_000
  const MINUTE: int := 60 * SECOND

  /** `sub` can be obtained from `s` by deleting entries. */
  ghost predicate IsSubsequence<T>(sub: seq<T>, s: seq<T>)
    decreases |s|
  {
    if |sub| == 0 then true
    else if |s| == 0 then false
    else (sub[0] == s[0] && IsSubsequence(sub[1..], s[1..])) || IsSubsequence(sub, s[1..])
  }

  /** The entries of `log` still inside the window ending at `now`, in their original order. */
  function Prune(log: seq<int>, now: int, window: int): (r: seq<int>)
    ensures |r| <= |log|
    ensures forall i :: 0 <= i < |r| ==> r[i] > now - window
    ensures forall t :: multiset(r)[t] == if t > now - window then multiset(log)[t] else 0
    ensures IsSubsequence(r, log)
    decreases |log|
  {
    if |log| == 0 then []
    else
      var rest := Prune(log[1..], now, window);
      assert log == [log[0]] + log[1..];
      if log[0] > now - window then
        assert ([log[0]] + rest)[1..] == rest;
        [log[0]] + rest
      else
        rest
  }

  /** Pruning again at the same or a later instant is the same as pruning once at the later one. */
  lemma {:induction false} PruneLater(log: seq<int>, earlier: int, later: int, window: int)
    requires earlier <= later
    ensures Prune(Prune(log, earlier, window), later, window) == Prune(log, later, window)
    decreases |log|
  {
    if |log| > 0 {
      PruneLater(log[1..], earlier, later, window);
      var p := Prune(log, earlier, window);
      if log[0] > earlier - window {
        assert p == [log[0]] + Prune(log[1..], earlier, window);
        assert p[1..] == Prune(log[1..], earlier, window);
      }
    }
  }

  /** Pruning is idempotent for a fixed `now`. */
  lemma PruneIdempotent(log: seq<int>, now: int, window: int)
    ensures Prune(Prune(log, now, window), now, window) == Prune(log, now, window)
  {
    PruneLater(log, now, now, window);
  }

  /** A log whose entries are all at least a window old prunes to nothing. */
  lemma {:induction false} PruneExpired(log: seq<int>, newest: int, now: int, window: int)
    requires forall i :: 0 <= i < |log| ==> log[i] <= newest
    requires now - window >= newest
    ensures Prune(log, now, window) == []
    decreases |log|
  {
    if |log| > 0 {
      PruneExpired(log[1..], newest, now, window);
    }
  }

  /** A log whose entries are all inside the window is kept whole. */
  lemma {:induction false} PruneKeepsFresh(log: seq<int>, now: int, window: int)
    requires forall i :: 0 <= i < |log| ==> log[i] > now - window
    ensures Prune(log, now, window) == log
    decreases |log|
  {
    if |log| > 0 {
      PruneKeepsFresh(log[1..], now, window);
      assert log == [log[0]] + log[1..];
    }
  }

  /** Pruning distributes over concatenation. */
  lemma {:induction false} PruneAppend(a: seq<int>, b: seq<int>, now: int, window: int)
    ensures Prune(a + b, now, window) == Prune(a, now, window) + Prune(b, now, window)
    decreases |a|
  {
    if |a| == 0 {
      assert a + b == b;
    } else {
      PruneAppend(a[1..], b, now, window);
      assert (a + b)[1..] == a[1..] + b;
    }
  }
}
